=== FILE: README.md ===
# Material scrapers: a verified model of their bookkeeping

This project models, in Dafny, the logic inside four texture-library scrapers:

**AmbientCG runners** — `ambientCG-fullScraper-1.py` and `ambientCG-testScraper.py`. These are resumable queue runners. Each one:
- reads the download history (`download_history.txt`) into a set of processed asset ids;
- builds a queue of asset ids from the `asset-block` elements of the listing page, or resumes the queue saved in the queue file;
- pops ids first in, first out while fewer than 8 downloads are in progress;
- clicks every download link whose label does not contain `JPG`;
- records the outcome of each asset:
  - in the history file;
  - in the success and failed counters;
  - in the markdown failure log `failed_downloads.md`;
  - in the saved queue snapshot.

The test runner indexes at most 25 assets and stops after 25 completed ones.

**C4DCenter scrapers** — the root `C4Dcenter-materialScraper-1.py` and its copy under `C4DCenter-scraper/`. Each one:
- validates its setup answers: the download path, headless mode, and the start and end pages;
- visits the library pages in order and deduplicates the product links of each page;
- skips a product whose slug already appears in a file name in the download folder;
- otherwise clicks the product's download button and counts the download.

For the root script, a download counts only once a new, finished file has appeared. The copy counts every click that goes through. Both keep `downloaded_filenames` and write it to a session log.

## How the effects are modelled

The browser, the download directory, the clock, the stop hotkey and the JSON files are not modelled as effects. Whatever the program would read from them is a parameter:

| Effect | Parameter in the model |
|---|---|
| Directory listings | `seq<string>` values |
| What an asset page holds | A `Page`: the raised error, or the links with the result of clicking each one |
| The asset page's effect on the loop's bookkeeping | An `Outcome` (`AmbientPage.Classify`) carried by each loop iteration |
| What loading a C4DCenter library page or product page yields | `LibraryPage` and `Visit` values |
| `os.path.exists`, the "Create it?" answer, `os.makedirs` | Parameters of `ValidatePath` |

The saved queue file is modelled as the `persisted` snapshot in the runner state.

Two Python library behaviours are simplified:
- `str.lower`/`str.upper` map only the ASCII letters.
- `int(s)` follows a simplified grammar:
  - optional surrounding whitespace;
  - then an optional `+` or `-`;
  - then one or more ASCII digits.

  Python also accepts underscores between digits and non-ASCII decimal digits. The model treats those inputs as `ValueError`.

`str.strip()` uses Python's full `isspace` set. History lines are split on both `\n` and `\r`, as Python's universal-newline reading does.

### The queue snapshot on the no-links path

Both runners re-save the queue file after every dispatched asset, except on the no-links path:
- When an asset page has no download links, both runners `continue` before `save_json` (`ambientCG-fullScraper-1.py:163-167`, `ambientCG-testScraper.py:148-152`).
- The model follows the code. `Dispatch` keeps the old snapshot on that path.
- `EmptyPageLeavesStaleSnapshot` shows the consequence: the popped id is still in the saved queue.
- `RunKeepsPendingPersisted` shows the bound on the damage: every id still queued is also still in the snapshot.

## Model

| member | source | states |
|---|---|---|
| Text.Strip | AmbientCG-scraper/ambientCG-fullScraper-1.py:118 | `line.strip()` has no whitespace at either end, and is empty exactly when the line is all whitespace |
| Text.StripIdempotent | AmbientCG-scraper/ambientCG-fullScraper-1.py:118 | stripping an already stripped line changes nothing |
| Text.Lower | C4Dcenter-materialScraper-1.py:42 | `lower()` keeps the length and lower-cases each character in place |
| Text.LowerIdempotent | C4DCenter-scraper/C4Dcenter-materialScraper-1.py:54 | lower-casing twice is the same as lower-casing once |
| Text.ContainsIffOccurs | C4Dcenter-materialScraper-1.py:150 | the substring test `slug in name` holds exactly when the slug occurs at some position of the name |
| Text.RemoveAll | AmbientCG-scraper/ambientCG-fullScraper-1.py:140 | `replace("asset-", "")` keeps the remaining characters in their order (a subsequence of the input) and removes at least one copy of the pattern whenever the pattern occurs. The result may still contain the pattern, as Python's left-to-right scan allows |
| Text.RemoveAllWholeCopies | AmbientCG-scraper/ambientCG-fullScraper-1.py:140 | the number of characters `replace` removes is a whole multiple of the pattern's length |
| Text.RemoveAllAbsent | AmbientCG-scraper/ambientCG-fullScraper-1.py:140 | an id without the prefix is left unchanged |
| Text.SplitAtSeparator | C4Dcenter-materialScraper-1.py:147 | splitting at a separator splits the text on either side of it independently |
| Text.LastPieceIsSuffix | C4Dcenter-materialScraper-1.py:147 | `split("/")[-1]` is a suffix of the text, preceded by a separator unless it is the whole text |
| Text.ParseInt | C4Dcenter-materialScraper-1.py:50 | `int(val)` is defined only for non-blank text, and is negative only when the text starts with `-` |
| Text.ParseIntRoundTrip | C4Dcenter-materialScraper-1.py:50 | `int(str(n)) == n` for every integer |
| Text.ParseIntNeedsDigit | C4Dcenter-materialScraper-1.py:49-54 | text containing no digit raises `ValueError` |
| Text.ParseIntLiterals | C4Dcenter-materialScraper-1.py:49-54 | `int(val)` succeeds with `n` exactly when `val` is whitespace, at most one `+` or `-`, a non-empty run of ASCII digits (leading zeros allowed), whitespace, and the signed value of those digits is `n`. Anything else (`"12abc"`, `"1 2"`, `"--1"`, `"+"`, `""`) raises `ValueError` |
| Text.ParseIntOfLiteral | C4Dcenter-materialScraper-1.py:50 | every such literal parses, to its digits' value, negated after a `-` |
| Text.ParseIntIsLiteral | C4Dcenter-materialScraper-1.py:50 | every text that parses has such a decomposition, and its value is the parsed number |
| Seqs.Filter | AmbientCG-scraper/ambientCG-fullScraper-1.py:141 | a list comprehension keeps exactly the elements that pass its test |
| Seqs.FilterIsSubseq | AmbientCG-scraper/ambientCG-fullScraper-1.py:141 | a comprehension keeps the original order |
| Seqs.FilterCount | AmbientCG-scraper/ambientCG-fullScraper-1.py:141 | a comprehension keeps every occurrence of a kept element and no occurrence of any other |
| Seqs.Dedupe | C4Dcenter-materialScraper-1.py:143 | `list(dict.fromkeys(xs))` has no duplicates and has the same elements as `xs` |
| Seqs.DedupeFirstOccurrenceOrder | C4Dcenter-materialScraper-1.py:143 | the deduplicated list is in order of first occurrence |
| Seqs.DedupeOfDistinct | C4DCenter-scraper/C4Dcenter-materialScraper-1.py:111 | a list without duplicates is its own deduplication |
| Seqs.DedupeCountsDistinct | C4Dcenter-materialScraper-1.py:143-144 | the number of URLs added to `total_found` is the number of distinct links |
| FailureLog.Append | AmbientCG-scraper/ambientCG-fullScraper-1.py:39-50 | the header is written only when the log is absent; an existing log is only extended; the row comes last |
| FailureLog.LogAllExisting | AmbientCG-scraper/ambientCG-testScraper.py:40-45 | logging to an existing file appends one row per failure and no second header |
| FailureLog.LogAllFresh | AmbientCG-scraper/ambientCG-testScraper.py:40-45 | a new log gets the two header lines once, followed by the rows |
| FailureLog.RowRoundTrip | AmbientCG-scraper/ambientCG-fullScraper-1.py:50 | a row whose fields contain no `\|` reads back as its timestamp, asset id, file name and reason |
| AmbientIndex.ExtractIds | AmbientCG-scraper/ambientCG-fullScraper-1.py:140 | ids come only from blocks with a non-empty id, one per such block, with the `asset-` prefix removed |
| AmbientIndex.ExtractIdsAppend | AmbientCG-scraper/ambientCG-fullScraper-1.py:140 | extraction treats blocks independently and in page order |
| AmbientIndex.ExtractRendered | AmbientCG-scraper/ambientCG-fullScraper-1.py:139-140 | a listing rendered as `asset-<id>` blocks yields back exactly its ids |
| AmbientIndex.Unprocessed | AmbientCG-scraper/ambientCG-fullScraper-1.py:141 | the fresh queue holds exactly the indexed ids that are not in the history, every occurrence of each, in index order |
| AmbientIndex.UnprocessedIdempotent | AmbientCG-scraper/ambientCG-fullScraper-1.py:141 | filtering the queue again against the same history removes nothing more |
| AmbientIndex.UnprocessedNoHistory | AmbientCG-scraper/ambientCG-fullScraper-1.py:141 | with an empty history the queue is the whole index |
| AmbientIndex.TestIndex | AmbientCG-scraper/ambientCG-testScraper.py:124 | the test queue holds at most 25 ids, is a prefix of the unprocessed ids, and is all of them when there are fewer than 25 |
| AmbientIndex.EntriesMembers | AmbientCG-scraper/ambientCG-fullScraper-1.py:118 | the processed set is exactly the set of stripped non-blank lines |
| AmbientIndex.ParseHistory | AmbientCG-scraper/ambientCG-fullScraper-1.py:118 | every entry read from the history is non-empty, has no surrounding whitespace and contains no line break |
| AmbientIndex.ParseHistoryAppend | AmbientCG-scraper/ambientCG-fullScraper-1.py:188 | lines appended after a terminated history are read independently of what precedes them |
| AmbientIndex.ParseHistoryLine | AmbientCG-scraper/ambientCG-fullScraper-1.py:188 | reading back one appended line `id + "\n"` gives exactly that id |
| AmbientIndex.ParseHistoryText | AmbientCG-scraper/ambientCG-testScraper.py:173 | reading back a session's appended lines gives exactly the session's ids |
| AmbientIndex.HistoryRoundTrip | AmbientCG-scraper/ambientCG-fullScraper-1.py:118 | appending a session's ids to a terminated history adds exactly those ids to the processed set, and keeps the file terminated |
| AmbientIndex.UnterminatedHistoryMerges | AmbientCG-scraper/ambientCG-fullScraper-1.py:188 | when a history's only entry has no final line break, appending an id glues the two together: the text reads back as the single entry `last + id`, and neither `last` nor `id` counts as processed |
| AmbientPage.ClickPassCounts | AmbientCG-scraper/ambientCG-fullScraper-1.py:169-186 | the click loop clicks exactly the non-JPG links whose click succeeds, logs one error per non-JPG link whose click raises, and attempts no JPG link |
| AmbientPage.ClickPassErrors | AmbientCG-scraper/ambientCG-fullScraper-1.py:183-185 | the logged click errors are the failing non-JPG links' labels and messages, in page order |
| AmbientPage.ClickedIffSucceeding | AmbientCG-scraper/ambientCG-testScraper.py:154-172 | a click succeeds on the page exactly when some non-JPG link's click succeeds; a page of JPG links logs nothing |
| AmbientPage.Classify | AmbientCG-scraper/ambientCG-fullScraper-1.py:156-199 | a page ends in the `except` branch exactly when it raised, in the no-links branch exactly when it has no links, and otherwise completes, with a click counted exactly when a non-JPG link succeeded |
| AmbientPage.CompletedErrors | AmbientCG-scraper/ambientCG-testScraper.py:163-170 | a completed page's errors are those of its failing non-JPG links |
| AmbientRunner.ActiveDownloads | AmbientCG-scraper/ambientCG-fullScraper-1.py:74-77 | the count of active downloads is zero exactly when no entry ends in `.crdownload`, and is at most the number of entries |
| AmbientRunner.ActiveDownloadsDistinct | AmbientCG-scraper/ambientCG-testScraper.py:69-72 | for a listing without repeated names, the count is the number of distinct partial files |
| AmbientRunner.Dispatch | AmbientCG-scraper/ambientCG-fullScraper-1.py:153-200 | a dispatch removes exactly the queue head, whatever the outcome. The history gains the id and `success` grows by one exactly on a click. `failed` grows by one exactly on the no-links and exception paths. `session_count` grows exactly on completion. The snapshot is rewritten except after a page without links |
| AmbientRunner.PageBookkeeping | AmbientCG-scraper/ambientCG-fullScraper-1.py:163-199 | for a page: history and `success` change exactly when a non-JPG link was clicked. `failed` changes exactly when the page raised or had no links. The `CRITICAL` and `ALL` rows carry the error and the runner's no-links reason |
| AmbientRunner.CompletedPageRows | AmbientCG-scraper/ambientCG-fullScraper-1.py:178-185 | a completed page appends one failure row per failing non-JPG link: the asset id, the label and the click's message, in page order |
| AmbientRunner.EmptyPageLeavesStaleSnapshot | AmbientCG-scraper/ambientCG-fullScraper-1.py:163-167 | after a page without links, the saved queue still contains the popped id |
| AmbientRunner.Step | AmbientCG-scraper/ambientCG-fullScraper-1.py:147-153 | at 8 or more active downloads an iteration changes nothing; otherwise it pops the head |
| AmbientRunner.Run | AmbientCG-scraper/ambientCG-fullScraper-1.py:146-200 | what remains of the queue is always a suffix of the starting queue, and an empty queue stops the loop at once |
| AmbientRunner.RunStops | AmbientCG-scraper/ambientCG-testScraper.py:131 | each stop condition of the loop test ends the loop at once, with the state unchanged and nothing dispatched: an empty queue, the stop hotkey, and, in the test runner, 25 completed sessions (the full runner's test at `ambientCG-fullScraper-1.py:146` has the first two) |
| AmbientRunner.RunIsFifo | AmbientCG-scraper/ambientCG-fullScraper-1.py:153 | the dispatched ids followed by the remaining queue are exactly the starting queue |
| AmbientRunner.RunNoRetry | AmbientCG-scraper/ambientCG-testScraper.py:138 | from a queue without duplicates, no id is dispatched twice, and no dispatched id is still queued |
| AmbientRunner.RunHistoryGrows | AmbientCG-scraper/ambientCG-fullScraper-1.py:187-189 | the history only grows, by one line per counted success |
| AmbientRunner.RunHistory | AmbientCG-scraper/ambientCG-testScraper.py:172-174 | the ids added to the history are dispatched ids, in dispatch order |
| AmbientRunner.RunKeepsPendingPersisted | AmbientCG-scraper/ambientCG-fullScraper-1.py:193 | every id still queued is in the saved snapshot, so a restart can repeat an id but never loses one |
| AmbientRunner.RunTestAccounting | AmbientCG-scraper/ambientCG-testScraper.py:131-184 | in the test runner each dispatched id either completes (counting towards `session_count`) or fails. Successes never exceed completions. `session_count` never passes 25 when it starts at or below 25 |
| AmbientRunner.RunOutcomesBounded | AmbientCG-scraper/ambientCG-fullScraper-1.py:163-199 | successes plus failures never exceed the dispatched ids |
| AmbientRunner.Initialize | AmbientCG-scraper/ambientCG-fullScraper-1.py:115-142 | a saved non-empty queue is resumed. Otherwise the fresh queue is exactly the indexed ids not in the history, in index order, for the full runner (`Unprocessed`). For the test runner it is the first 25 of them, or all of them when there are fewer (`TestIndex`, `ambientCG-testScraper.py:124`). Either way, the snapshot equals the queue |
| AmbientRunner.NextSessionSkipsDownloaded | AmbientCG-scraper/ambientCG-fullScraper-1.py:141 | an id recorded in the history during a session is filtered out of the next session's fresh queue |
| C4DValidate.Unquote | C4Dcenter-materialScraper-1.py:27 | every `"` and `'` is removed; all other characters stay, in order |
| C4DValidate.UnquoteCounts | C4DCenter-scraper/C4Dcenter-materialScraper-1.py:40 | each non-quote character keeps its number of occurrences |
| C4DValidate.UnquoteIdempotent | C4Dcenter-materialScraper-1.py:27 | removing the quotes a second time changes nothing |
| C4DValidate.NoQuotesUnchanged | C4Dcenter-materialScraper-1.py:27 | a path without quotes is kept as typed |
| C4DValidate.ValidatePath | C4Dcenter-materialScraper-1.py:25-38 | an accepted path is the non-empty, quote-free cleaned path. An empty result is rejected. An existing path is accepted (`os.path.exists` is also true for a regular file). A missing one is accepted only when the answer lower-cases to `y` and creation succeeds. A failed creation is rejected with the error text `str(e)` from `os.makedirs`, and any other answer with the script's message |
| C4DValidate.ValidatePathStable | C4DCenter-scraper/C4Dcenter-materialScraper-1.py:39-51 | a path accepted once is accepted unchanged when entered again |
| C4DValidate.ValidateBool | C4Dcenter-materialScraper-1.py:40-45 | accepts exactly `y`, `yes`, `n` and `no` in any letter case, giving true for the first two, and rejects anything else with the script's message |
| C4DValidate.ValidateBoolIgnoresCase | C4DCenter-scraper/C4Dcenter-materialScraper-1.py:53-56 | the answer is read case-insensitively |
| C4DValidate.ValidateInt | C4Dcenter-materialScraper-1.py:47-54 | accepts only integers of at least 1. The message says whether the text was not a number or was below 1 |
| C4DValidate.ValidateIntRoundTrip | C4DCenter-scraper/C4Dcenter-materialScraper-1.py:58-63 | every decimal number of at least 1 is accepted as itself; every number below 1 gets the "1 or higher" message |
| C4DValidate.ValidateIntNeedsDigit | C4DCenter-scraper/C4Dcenter-materialScraper-1.py:58-63 | text without a digit gets the "valid number" message |
| C4DPages.PageBounds | C4Dcenter-materialScraper-1.py:63-65 | the root script ends setup with start ≤ end, keeping the two entered pages. The copy never swaps |
| C4DPages.PageRange | C4DCenter-scraper/C4Dcenter-materialScraper-1.py:103 | `range(start, end + 1)` lists `end - start + 1` consecutive pages from `start`, or none |
| C4DPages.PageRangeVisits | C4DCenter-scraper/C4Dcenter-materialScraper-1.py:103 | a page is visited exactly when it lies between the bounds, in ascending order |
| C4DPages.RootOrderIrrelevant | C4Dcenter-materialScraper-1.py:63-65 | the root script visits the same pages whichever order the bounds are entered in, and visits both |
| C4DPages.SubReversedVisitsNothing | C4DCenter-scraper/C4Dcenter-materialScraper-1.py:103 | without the swap, a start page after the end page visits nothing |
| C4DPages.PageUrl | C4Dcenter-materialScraper-1.py:130 | every listing URL starts with the library root, and it is the root itself exactly for page 1 |
| C4DPages.PageUrlRoundTrip | C4Dcenter-materialScraper-1.py:130 | the page number can be read back from its listing URL |
| C4DPages.PageUrlInjective | C4DCenter-scraper/C4Dcenter-materialScraper-1.py:104 | different pages get different URLs |
| C4DItems.Slug | C4Dcenter-materialScraper-1.py:147 | the slug contains no `/` |
| C4DItems.SlugInUrl | C4DCenter-scraper/C4Dcenter-materialScraper-1.py:115 | the slug is no longer than the URL and uses only its characters |
| C4DItems.SlugOfProductUrl | C4Dcenter-materialScraper-1.py:147 | the slug of `…/name` or `…/name/` is `name` |
| C4DItems.EmptySlugMatchesAnything | C4Dcenter-materialScraper-1.py:150 | an empty slug counts as already existing whenever the folder is not empty |
| C4DItems.NewFiles | C4Dcenter-materialScraper-1.py:173-175 | the new files are exactly the names present after but not before that are not `.tmp` or `.crdownload` |
| C4DItems.NewFilesOfAdded | C4Dcenter-materialScraper-1.py:173-175 | when finished files are added to a folder, exactly those files are detected as new |
| C4DItems.ProcessItem | C4Dcenter-materialScraper-1.py:146-184 | a product is skipped exactly when a lower-cased folder entry contains its slug, and then only `skipped` changes. A failed navigation to an unskipped product abandons the rest of the page and changes nothing. An error is counted exactly when the button step raised. `downloaded` and `downloaded_filenames` grow together, by at most one |
| C4DItems.ItemDownload | C4DCenter-scraper/C4Dcenter-materialScraper-1.py:126-134 | the copy records the slug exactly when the click went through. The root script counts a download exactly when the wait finished and a new finished file appeared, and records that file |
| C4DItems.RecordedIsNew | C4Dcenter-materialScraper-1.py:177-180 | the recorded name is a finished file that appeared during the download |
| C4DItems.ItemRecordsWell | C4Dcenter-materialScraper-1.py:177-180 | every name a product adds is a finished file (root script) or a slash-free slug (the copy) |
| C4DItems.ProcessUrls | C4DCenter-scraper/C4Dcenter-materialScraper-1.py:114-136 | over a page's products: `downloaded_filenames` grows with `downloaded`, and at most one product is accounted for per URL |
| C4DItems.SubAccountsForAll | C4DCenter-scraper/C4Dcenter-materialScraper-1.py:114-136 | in the copy, when no product visit raises, every product is downloaded, skipped or counted as an error |
| C4DItems.ProcessPage | C4Dcenter-materialScraper-1.py:129-187 | `total_found` grows by the number of distinct product links. A page that fails to list changes nothing. A failed navigation to the page ends the session |
| C4DItems.SubPageAccountsForAll | C4DCenter-scraper/C4Dcenter-materialScraper-1.py:108-138 | in the copy, a page whose product visits do not raise grows `downloaded + skipped + errors` by exactly as much as `total_found` |
| C4DItems.RunPages | C4Dcenter-materialScraper-1.py:129-187 | across the session, `total_found` grows by exactly the distinct product links of every listed page up to the first page that cannot be loaded (`FoundOn`). `downloaded_filenames` has one entry per download, each of the promised kind. No more products are accounted for than were found |
| C4DItems.SubRunAccountsForAll | C4DCenter-scraper/C4Dcenter-materialScraper-1.py:103-138 | in the copy, when no product visit raises, the page loop grows `downloaded + skipped + errors` by exactly as much as `total_found` |
| C4DItems.ScrapeTotals | C4DCenter-scraper/C4Dcenter-materialScraper-1.py:103-136 | a whole session: `len(downloaded_filenames) == downloaded`, `total_found` is the `FoundOn` count of the visited pages, and `downloaded + skipped + errors ≤ total_found` |
| C4DItems.SubScrapeAccountsForAll | C4DCenter-scraper/C4Dcenter-materialScraper-1.py:100-138 | in the copy, a whole session in which no product visit raises ends with `downloaded + skipped + errors == total_found` |
| C4DItems.JoinLinesRoundTrip | C4DCenter-scraper/C4Dcenter-materialScraper-1.py:142-145 | the session log, split at newlines, gives back the recorded names when none contains a newline |

## Left out

- Selenium: navigation, `find_elements`, `WebDriverWait`, clicks, Chrome options and the CDP ad filter. Their results are parameters.
- Timing: `time.sleep`, the random delays, the drain loops at the end of the AmbientCG runners, and the root C4DCenter script's `wait_for_download_robust`. These poll a directory that another process writes. The wait's verdict is a parameter of each product visit.
- The stop hotkey: it is asynchronous, so it is modelled as a flag read at each loop test.
- Capacity waits: a wait iteration re-checks the capacity but changes no state.
- `Run`: the loop is modelled over a finite sequence of iterations, so the model describes any prefix of a session, not its termination.
- The AmbientCG indexing loops:
  - the full runner's scrolling;
  - the test runner's repeated index at `ambientCG-testScraper.py:121-128`.

  The queue is modelled as the last index computed. The test runner's loop has no page-height check. When the fully scrolled page offers fewer than 25 unprocessed ids, only the stop hotkey ends it, and the queue it saves then is the last index. `TestIndex` covers that case with all the unprocessed ids when there are fewer than 25.
- Exceptions the model does not separate:
  - an exception from `link.text` (reading a link's label);
  - a failure while writing the history, log or queue files;
  - a non-string `href`.

  Each would move control to a branch the model does not separate from its neighbours.
- File I/O: JSON config and queue-file I/O, the debug traces, and console colours. The queue file is the `persisted` snapshot. The history file is its text, read by `ParseHistory`. The failure log is its text, built by `FailureLog.Append`.
- Windows elevation through `ctypes`, and the `input()` prompts with `get_input`'s retry loop. The validators receive the answer after `get_input`'s `strip()`.
- `c4d-importer.py` and `extract-assets.py` are not part of this model. They are a thin loop over the Cinema 4D document API and a 7-Zip subprocess wrapper.
- The log file's timestamped name and the clock.
- C4DItems.ProcessItem: the root script lists the folder twice, once for the duplicate check and once for `files_before`. The model uses one listing for both, so a download that finishes between the two calls is not modelled.
- C4DItems.NewFiles: `list(files_after - files_before)` has no defined order in Python. The model lists the new files in the order of the later listing, so the name the root script records is the first of them in that order.
- Text.Lower: only ASCII letters change case, so the non-ASCII case mappings of `str.lower`/`str.upper` are not modelled.
- Text.ParseInt: uses the simplified `int()` grammar described above. It rejects underscores and non-ASCII digits, which Python accepts.
- Text.ParseInt: accepts decimal text of any length. CPython 3.11 and later (and the 3.10.7 and 3.9.14 security releases) raise `ValueError` for more than 4300 digits (`sys.int_info.default_max_str_digits`), so there `validate_int` returns its "valid number" message where `ValidateInt` accepts. The model follows interpreters without that limit, because the scripts do not name a Python version.

=== FILE: ambient_index.dfy ===
/** How the AmbientCG runners build their work queue: reading the download
    history into the `processed` set, turning the listing's `asset-block`
    elements into asset ids, and keeping the ids not yet downloaded.
 */
module AmbientIndex {
  import opened Wrappers
  import opened Text
  import opened Seqs

  /** One `asset-block` element of the listing page, reduced to its `id`
      attribute (`None` when the element has none). */
  datatype Block = Block(idAttr: Option<string>)

  /** The prefix the listing puts in front of every asset id. */
  const AssetPrefix: string := "asset-"

  /** How many assets the test runner indexes and processes per session. */
  const TestItemLimit: nat := 25

  // ---------------------------------------------------------------------------
  // Ids from the listing
  // ---------------------------------------------------------------------------

  /** The comprehension's guard `if el.get_attribute("id")`: the attribute
      is present and not the empty string. */
  predicate HasId(b: Block) {
    b.idAttr.Some? && b.idAttr.value != []
  }

  /** `el.get_attribute("id").replace("asset-", "")`. */
  function IdOf(b: Block): string
    requires HasId(b)
  {
    RemoveAll(b.idAttr.value, AssetPrefix)
  }

  /** The ids of the blocks that have one, in page order. */
  function ExtractIds(blocks: seq<Block>): (ids: seq<string>)
    ensures |ids| == |Filter(blocks, HasId)|
    ensures forall id :: id in ids ==> exists b :: b in blocks && HasId(b) && IdOf(b) == id
    ensures forall b :: b in blocks && HasId(b) ==> IdOf(b) in ids
    decreases |blocks|
  {
    if blocks == [] then []
    else
      var rest := ExtractIds(blocks[1..]);
      assert forall b :: b in blocks[1..] ==> b in blocks;
      assert forall b :: b in blocks ==> b == blocks[0] || b in blocks[1..];
      (if HasId(blocks[0]) then [IdOf(blocks[0])] else []) + rest
  }

  /** Blocks are read independently: extraction distributes over
      concatenation, so blocks without an id contribute nothing. */
  lemma {:induction false} ExtractIdsAppend(a: seq<Block>, b: seq<Block>)
    ensures ExtractIds(a + b) == ExtractIds(a) + ExtractIds(b)
    decreases |a|
  {
    if a != [] {
      assert (a + b)[1..] == a[1..] + b;
      ExtractIdsAppend(a[1..], b);
    } else {
      assert a + b == b;
    }
  }

  /** The listing as the site renders it: one block `asset-<id>` per id. */
  function Render(ids: seq<string>): (blocks: seq<Block>)
    ensures |blocks| == |ids|
    decreases |ids|
  {
    if ids == [] then [] else [Block(Some(AssetPrefix + ids[0]))] + Render(ids[1..])
  }

  /** The id read from a rendered block is the id it was rendered from. */
  lemma IdOfRendered(x: string)
    requires !Contains(x, AssetPrefix)
    ensures IdOf(Block(Some(AssetPrefix + x))) == x
  {
    var s := AssetPrefix + x;
    assert s[..|AssetPrefix|] == AssetPrefix;
    assert s[|AssetPrefix|..] == x;
    assert RemoveAll(s, AssetPrefix) == RemoveAll(x, AssetPrefix);
    RemoveAllAbsent(x, AssetPrefix);
  }

  /** Reading back a rendered listing gives the ids it was rendered from,
      provided no id itself contains the prefix. */
  lemma {:induction false} ExtractRendered(ids: seq<string>)
    requires forall k :: 0 <= k < |ids| ==> !Contains(ids[k], AssetPrefix)
    ensures ExtractIds(Render(ids)) == ids
    decreases |ids|
  {
    if ids != [] {
      var blocks := Render(ids);
      assert blocks[0] == Block(Some(AssetPrefix + ids[0]));
      assert blocks[1..] == Render(ids[1..]);
      IdOfRendered(ids[0]);
      ExtractRendered(ids[1..]);
      assert ExtractIds(blocks) == [ids[0]] + ExtractIds(blocks[1..]);
      HeadTail(ids);
    }
  }

  // ---------------------------------------------------------------------------
  // The queue
  // ---------------------------------------------------------------------------

  /** The comprehension's test `aid not in processed`, as a function value. */
  function NotProcessed(processed: set<string>): string -> bool {
    x => x !in processed
  }

  /** `[aid for aid in ids if aid not in processed]`: every occurrence of an
      unprocessed id, in index order, and nothing else. */
  function Unprocessed(ids: seq<string>, processed: set<string>): (queue: seq<string>)
    ensures forall x :: x in queue <==> x in ids && x !in processed
    ensures forall x :: x !in processed ==> multiset(queue)[x] == multiset(ids)[x]
    ensures IsSubseq(queue, ids)
  {
    var keep := NotProcessed(processed);
    FilterIsSubseq(ids, keep);
    assert forall x :: x !in processed ==> multiset(Filter(ids, keep))[x] == multiset(ids)[x] by {
      forall x | x !in processed
        ensures multiset(Filter(ids, keep))[x] == multiset(ids)[x]
      {
        FilterCount(ids, keep, x);
      }
    }
    Filter(ids, keep)
  }

  /** Filtering against the same history twice changes nothing more. */
  lemma UnprocessedIdempotent(ids: seq<string>, processed: set<string>)
    ensures Unprocessed(Unprocessed(ids, processed), processed) == Unprocessed(ids, processed)
  {
    FilterIdempotent(ids, NotProcessed(processed));
  }

  /** A queue indexed with no history is the whole index. */
  lemma {:induction false} UnprocessedNoHistory(ids: seq<string>)
    ensures Unprocessed(ids, {}) == ids
    decreases |ids|
  {
    if ids != [] {
      UnprocessedNoHistory(ids[1..]);
      assert Filter(ids, NotProcessed({})) == [ids[0]] + Filter(ids[1..], NotProcessed({}));
    }
  }

  /** The test runner's index: the unprocessed ids cut to the item limit. */
  function TestIndex(ids: seq<string>, processed: set<string>): (queue: seq<string>)
    ensures |queue| <= TestItemLimit
    ensures queue <= Unprocessed(ids, processed)
    ensures |queue| < TestItemLimit ==> queue == Unprocessed(ids, processed)
    ensures forall x :: x in queue ==> x in ids && x !in processed
    ensures IsSubseq(queue, ids)
  {
    var all := Unprocessed(ids, processed);
    if |all| <= TestItemLimit then all
    else
      PrefixOfSubseq(all, ids, TestItemLimit);
      all[..TestItemLimit]
  }

  // ---------------------------------------------------------------------------
  // The download history
  // ---------------------------------------------------------------------------

  /** What one line of the history contributes when read back: a non-empty
      text without surrounding whitespace or line breaks. */
  predicate IsHistoryEntry(x: string) {
    x != [] && !IsSpace(x[0]) && !IsSpace(x[|x| - 1]) && NoneWhere(x, IsLineBreak)
  }

  /** `line.strip()` of every non-blank line. */
  function Entries(lines: seq<string>): set<string>
    decreases |lines|
  {
    if lines == [] then {}
    else (if Strip(lines[0]) != [] then {Strip(lines[0])} else {}) + Entries(lines[1..])
  }

  /** Every stripped non-blank line is an entry. */
  lemma {:induction false} EntryOfLine(lines: seq<string>, k: nat)
    requires k < |lines| && Strip(lines[k]) != []
    ensures Strip(lines[k]) in Entries(lines)
    decreases k
  {
    if k > 0 {
      assert lines[1..][k - 1] == lines[k];
      EntryOfLine(lines[1..], k - 1);
    }
  }

  /** Every entry is some stripped non-blank line. */
  lemma {:induction false} LineOfEntry(lines: seq<string>, x: string)
    requires x in Entries(lines)
    ensures exists k :: 0 <= k < |lines| && Strip(lines[k]) != [] && Strip(lines[k]) == x
    decreases |lines|
  {
    if Strip(lines[0]) != [] && Strip(lines[0]) == x {
      assert 0 < |lines|;
    } else {
      LineOfEntry(lines[1..], x);
      var k :| 0 <= k < |lines[1..]| && Strip(lines[1..][k]) != [] && Strip(lines[1..][k]) == x;
      assert lines[k + 1] == lines[1..][k];
    }
  }

  /** `Entries` is the set comprehension `{line.strip() for line in lines if line.strip()}`. */
  lemma EntriesMembers(lines: seq<string>, x: string)
    ensures x in Entries(lines) <==> exists k :: 0 <= k < |lines| && Strip(lines[k]) != [] && Strip(lines[k]) == x
  {
    if x in Entries(lines) {
      LineOfEntry(lines, x);
    }
    if exists k :: 0 <= k < |lines| && Strip(lines[k]) != [] && Strip(lines[k]) == x {
      var k :| 0 <= k < |lines| && Strip(lines[k]) != [] && Strip(lines[k]) == x;
      EntryOfLine(lines, k);
    }
  }

  lemma {:induction false} EntriesAppend(a: seq<string>, b: seq<string>)
    ensures Entries(a + b) == Entries(a) + Entries(b)
    decreases |a|
  {
    if a != [] {
      assert (a + b)[1..] == a[1..] + b;
      EntriesAppend(a[1..], b);
    } else {
      assert a + b == b;
    }
  }

  /** Lines without line breaks contribute only history entries. */
  lemma {:induction false} EntriesAreEntries(lines: seq<string>)
    requires forall k :: 0 <= k < |lines| ==> NoneWhere(lines[k], IsLineBreak)
    ensures forall x :: x in Entries(lines) ==> IsHistoryEntry(x)
    decreases |lines|
  {
    if lines != [] {
      EntriesAreEntries(lines[1..]);
      StripKeepsNoneWhere(lines[0], IsLineBreak);
    }
  }

  /** A stripped line keeps only characters of the line. */
  lemma StripKeepsNoneWhere(s: string, sep: char -> bool)
    requires NoneWhere(s, sep)
    ensures NoneWhere(Strip(s), sep)
  {
    var a := LeadingCount(s, IsSpace);
    var r := Strip(s);
    assert r == s[a..a + |r|];
    forall j | 0 <= j < |r| ensures !sep(r[j]) {
      assert r[j] == s[a + j];
    }
  }

  /** The `processed` set read from the history file's text: the stripped
      non-blank lines, where a line ends at `\n` or `\r`. */
  function ParseHistory(text: string): (processed: set<string>)
    ensures forall x :: x in processed ==> IsHistoryEntry(x)
  {
    var lines := Split(text, IsLineBreak);
    SplitPiecesSeparatorFree(text, IsLineBreak);
    EntriesAreEntries(lines);
    Entries(lines)
  }

  /** The lines the runners append: `f"{asset_id}\n"` for each id in turn. */
  function HistoryText(ids: seq<string>): string
    decreases |ids|
  {
    if ids == [] then [] else ids[0] + "\n" + HistoryText(ids[1..])
  }

  /** The text is empty or its last line is terminated. */
  predicate EndsLine(text: string) {
    text == [] || IsLineBreak(text[|text| - 1])
  }

  /** After a terminated text, appended lines are read independently. */
  lemma ParseHistoryAppend(a: string, b: string)
    requires EndsLine(a)
    ensures ParseHistory(a + b) == ParseHistory(a) + ParseHistory(b)
  {
    if a == [] {
      assert a + b == b;
      assert ParseHistory(a) == {};
    } else {
      var n := |a| - 1;
      var c := a[n];
      var body := a[..n];
      assert a == body + [c] + [];
      assert a + b == body + [c] + b;
      SplitAtSeparator(body, c, b, IsLineBreak);
      SplitAtSeparator(body, c, [], IsLineBreak);
      assert Split([], IsLineBreak) == [[]];
      EntriesAppend(Split(body, IsLineBreak), Split(b, IsLineBreak));
      EntriesAppend(Split(body, IsLineBreak), [[]]);
      assert Entries([[]]) == {};
    }
  }

  /** The entries of a line and an empty piece are the line's entry. */
  lemma EntriesOfLine(id: string)
    requires IsHistoryEntry(id)
    ensures Entries([id, []]) == {id}
  {
    StripWhereClean(id, IsSpace);
    var empty: seq<string> := [[]];
    assert [id, []][1..] == empty;
    assert empty[1..] == [];
  }

  /** Reading back one appended line gives exactly its id. */
  lemma ParseHistoryLine(id: string)
    requires IsHistoryEntry(id)
    ensures ParseHistory(id + "\n") == {id}
  {
    assert id + "\n" == id + ['\n'] + [];
    SplitAtSeparator(id, '\n', [], IsLineBreak);
    SplitNoSeparator(id, IsLineBreak);
    assert Split(id + "\n", IsLineBreak) == [id, []];
    EntriesOfLine(id);
  }

  /** A session's history text is terminated. */
  lemma {:induction false} HistoryTextEndsLine(ids: seq<string>)
    ensures EndsLine(HistoryText(ids))
    decreases |ids|
  {
    if ids != [] {
      HistoryTextEndsLine(ids[1..]);
    }
  }

  /** The lines of a session's history text are its ids, then the empty
      text after the final line break. */
  lemma {:induction false} SplitHistoryText(ids: seq<string>)
    requires forall k :: 0 <= k < |ids| ==> NoneWhere(ids[k], IsLineBreak)
    ensures Split(HistoryText(ids), IsLineBreak) == ids + [[]]
    decreases |ids|
  {
    if ids != [] {
      var rest := HistoryText(ids[1..]);
      assert HistoryText(ids) == ids[0] + ['\n'] + rest;
      SplitAtSeparator(ids[0], '\n', rest, IsLineBreak);
      SplitNoSeparator(ids[0], IsLineBreak);
      SplitHistoryText(ids[1..]);
      assert ids == [ids[0]] + ids[1..];
    }
  }

  /** A line that is already an entry contributes itself. */
  lemma EntriesCons(lines: seq<string>)
    requires lines != [] && IsHistoryEntry(lines[0])
    ensures Entries(lines) == {lines[0]} + Entries(lines[1..])
  {
    StripWhereClean(lines[0], IsSpace);
  }

  /** The entries of history lines that are ids are those ids. */
  lemma {:induction false} EntriesOfIds(ids: seq<string>)
    requires forall k :: 0 <= k < |ids| ==> IsHistoryEntry(ids[k])
    ensures Entries(ids) == Elements(ids)
    decreases |ids|
  {
    if ids != [] {
      EntriesOfIds(ids[1..]);
      EntriesCons(ids);
      ElementsCons(ids);
    }
  }


  /** Reading back a session's history text gives exactly its ids. */
  lemma ParseHistoryText(ids: seq<string>)
    requires forall k :: 0 <= k < |ids| ==> IsHistoryEntry(ids[k])
    ensures ParseHistory(HistoryText(ids)) == Elements(ids)
  {
    SplitHistoryText(ids);
    EntriesTerminated(ids);
  }

  /** The ids followed by the empty piece after the final line break have
      the ids as entries. */
  lemma EntriesTerminated(ids: seq<string>)
    requires forall k :: 0 <= k < |ids| ==> IsHistoryEntry(ids[k])
    ensures Entries(ids + [[]]) == Elements(ids)
  {
    EntriesAppend(ids, [[]]);
    EntriesOfBlank();
    EntriesOfIds(ids);
  }

  /** The empty piece contributes no entry. */
  lemma EntriesOfBlank()
    ensures Entries([[]]) == {}
  {
    var blank: seq<string> := [[]];
    assert Strip(blank[0]) == [];
    assert blank[1..] == [];
  }

  /** Appending the ids of a session to a terminated history and reading it
      back adds exactly those ids, and leaves the text terminated. */
  lemma HistoryRoundTrip(prior: string, ids: seq<string>)
    requires EndsLine(prior)
    requires forall k :: 0 <= k < |ids| ==> IsHistoryEntry(ids[k])
    ensures EndsLine(prior + HistoryText(ids))
    ensures ParseHistory(prior + HistoryText(ids)) == ParseHistory(prior) + Elements(ids)
  {
    ParseHistoryAppend(prior, HistoryText(ids));
    ParseHistoryText(ids);
    HistoryTextEndsLine(ids);
    if HistoryText(ids) == [] {
      assert prior + HistoryText(ids) == prior;
    }
  }

  /** Without a final line break the next appended id is glued to the last
      line: a history holding only the unterminated entry `last`, once `id`
      is appended, reads back as the single entry `last + id`, so neither
      `last` nor `id` counts as processed. */
  lemma UnterminatedHistoryMerges(last: string, id: string)
    requires IsHistoryEntry(last) && IsHistoryEntry(id)
    ensures ParseHistory(last + HistoryText([id])) == {last + id}
    ensures last !in ParseHistory(last + HistoryText([id]))
    ensures id !in ParseHistory(last + HistoryText([id]))
  {
    var glued := last + id;
    assert HistoryText([id]) == id + "\n";
    assert last + HistoryText([id]) == glued + "\n";
    assert glued[0] == last[0] && glued[|glued| - 1] == id[|id| - 1];
    assert NoneWhere(glued, IsLineBreak) by {
      forall j | 0 <= j < |glued| ensures !IsLineBreak(glued[j]) {
        if j < |last| { assert glued[j] == last[j]; } else { assert glued[j] == id[j - |last|]; }
      }
    }
    ParseHistoryLine(glued);
  }
}

=== FILE: ambient_page.dfy ===
/** One AmbientCG asset page as the runners see it: the download links
    found on it, the click loop over them, and what the page amounts to for
    the runner's bookkeeping.
 */
module AmbientPage {
  import opened Text
  import opened Seqs

  /** What `execute_script("arguments[0].click();", link)` did. */
  datatype Click = Clicked | ClickRaised(error: string)

  /** A download link: its visible text and what clicking it would do. */
  datatype Link = Link(text: string, click: Click)

  /** `link.text.strip().replace('\n', ' ')`. */
  function Label(l: Link): string {
    ReplaceChar(Strip(l.text), '\n', ' ')
  }

  /** The exclusion test `"JPG" in label.upper()`. */
  predicate IsJpg(l: Link) {
    Contains(Upper(Label(l)), "JPG")
  }

  predicate IsAttempted(l: Link) {
    !IsJpg(l)
  }

  /** An attempted link whose click went through. */
  predicate Succeeds(l: Link) {
    IsAttempted(l) && l.click.Clicked?
  }

  /** An attempted link whose click raised. */
  predicate Fails(l: Link) {
    IsAttempted(l) && l.click.ClickRaised?
  }

  /** The file name and reason of the row logged for a click that raised. */
  datatype ClickError = ClickError(fileName: string, message: string)

  function ClickErrorOf(l: Link): ClickError
    requires l.click.ClickRaised?
  {
    ClickError(Label(l), l.click.error)
  }

  /** What the `for link in links` loop leaves behind: the number of
      successful clicks and the click errors it logged, in page order. */
  datatype Pass = Pass(clicked: nat, errors: seq<ClickError>)

  /** The `for link in links` loop over one asset page: JPG links are
      passed over, every other link is clicked in page order, and each
      click that raises is logged. */
  function ClickPass(links: seq<Link>): (p: Pass)
    ensures p.clicked <= |links|
    decreases |links|
  {
    if links == [] then Pass(0, [])
    else
      var rest := ClickPass(links[1..]);
      var l := links[0];
      if IsJpg(l) then rest
      else
        match l.click
        case Clicked => Pass(rest.clicked + 1, rest.errors)
        case ClickRaised(_) => Pass(rest.clicked, [ClickErrorOf(l)] + rest.errors)
  }

  /** The loop clicks exactly the non-JPG links whose click goes through,
      logs one error for each non-JPG link whose click raises, and so
      attempts every non-JPG link once. */
  lemma {:induction false} ClickPassCounts(links: seq<Link>)
    ensures ClickPass(links).clicked == |Filter(links, Succeeds)|
    ensures |ClickPass(links).errors| == |Filter(links, Fails)|
    ensures ClickPass(links).clicked + |ClickPass(links).errors| == |Filter(links, IsAttempted)|
    decreases |links|
  {
    if links != [] {
      ClickPassCounts(links[1..]);
      var l := links[0];
      assert Filter(links, Succeeds) == (if Succeeds(l) then [l] else []) + Filter(links[1..], Succeeds);
      assert Filter(links, Fails) == (if Fails(l) then [l] else []) + Filter(links[1..], Fails);
      assert Filter(links, IsAttempted) == (if IsAttempted(l) then [l] else []) + Filter(links[1..], IsAttempted);
    }
  }

  /** `errs` are the errors of the raising links `fails`, one for one. */
  predicate ErrorsMatch(errs: seq<ClickError>, fails: seq<Link>) {
    |errs| == |fails|
    && forall k :: 0 <= k < |errs| ==> fails[k].click.ClickRaised? && errs[k] == ClickErrorOf(fails[k])
  }

  lemma ErrorsMatchCons(l: Link, errs: seq<ClickError>, fails: seq<Link>)
    requires l.click.ClickRaised? && ErrorsMatch(errs, fails)
    ensures ErrorsMatch([ClickErrorOf(l)] + errs, [l] + fails)
  {
    var e, f := [ClickErrorOf(l)] + errs, [l] + fails;
    forall k | 0 <= k < |e| ensures f[k].click.ClickRaised? && e[k] == ClickErrorOf(f[k]) {
      if k > 0 {
        assert e[k] == errs[k - 1] && f[k] == fails[k - 1];
      }
    }
  }

  /** The errors the loop logs are those of the failing non-JPG links, in
      page order: the link's label and the click's error message. */
  lemma {:induction false} ClickPassErrors(links: seq<Link>)
    ensures ErrorsMatch(ClickPass(links).errors, Filter(links, Fails))
    decreases |links|
  {
    if links != [] {
      ClickPassErrors(links[1..]);
      var l := links[0];
      var restErrs, restFails := ClickPass(links[1..]).errors, Filter(links[1..], Fails);
      assert Filter(links, Fails) == (if Fails(l) then [l] else []) + restFails;
      if Fails(l) {
        assert ClickPass(links).errors == [ClickErrorOf(l)] + restErrs;
        ErrorsMatchCons(l, restErrs, restFails);
      } else {
        assert Filter(links, Fails) == restFails;
        assert ClickPass(links).errors == restErrs;
      }
    }
  }

  /** A click succeeded on the page exactly when some non-JPG link's click
      went through; a page of JPG links only clicks and logs nothing. */
  lemma ClickedIffSucceeding(links: seq<Link>)
    ensures ClickPass(links).clicked > 0 <==> exists l :: l in links && Succeeds(l)
    ensures (forall l :: l in links ==> IsJpg(l)) ==> ClickPass(links) == Pass(0, [])
  {
    ClickPassCounts(links);
    var ok := Filter(links, Succeeds);
    if ok != [] {
      assert ok[0] in ok;
    }
    var attempted := Filter(links, IsAttempted);
    if attempted != [] {
      assert attempted[0] in attempted;
    }
  }

  // ---------------------------------------------------------------------------
  // The page as a whole
  // ---------------------------------------------------------------------------

  /** What opening an asset page yielded: an exception from the browser, or
      the download links found on it. */
  datatype Page = PageRaised(error: string) | PageLoaded(links: seq<Link>)

  /** A page that loaded without a single download link. */
  predicate IsEmptyPage(page: Page) {
    page.PageLoaded? && page.links == []
  }

  /** A page that loaded with links: the loop's normal completion path. */
  predicate IsCompleted(page: Page) {
    page.PageLoaded? && page.links != []
  }

  /** Some non-JPG link of the page was clicked successfully. */
  predicate Downloaded(page: Page) {
    page.PageLoaded? && exists l :: l in page.links && Succeeds(l)
  }

  /** Which of the loop body's three exits a page takes: the `except`
      branch, the no-links branch, or the end of the `try` block with the
      click loop's result. */
  datatype Outcome = Crashed(error: string) | NoLinks | Completed(pass: Pass)

  /** The outcome of processing one asset page. */
  function Classify(page: Page): (o: Outcome)
    ensures o.Crashed? <==> page.PageRaised?
    ensures o.Crashed? ==> o.error == page.error
    ensures o == NoLinks <==> IsEmptyPage(page)
    ensures o.Completed? <==> IsCompleted(page)
    ensures o.Completed? ==> (o.pass.clicked > 0 <==> Downloaded(page))
  {
    match page
    case PageRaised(e) => Crashed(e)
    case PageLoaded(links) =>
      if links == [] then NoLinks
      else
        ClickedIffSucceeding(links);
        Completed(ClickPass(links))
  }

  /** A completed page's logged errors are those of its failing non-JPG
      links, in page order. */
  lemma CompletedErrors(page: Page)
    requires IsCompleted(page)
    ensures ErrorsMatch(Classify(page).pass.errors, Filter(page.links, Fails))
  {
    ClickPassErrors(page.links);
  }
}

=== FILE: ambient_runner.dfy ===
/** One session of an AmbientCG runner: the main loop that pops asset ids
    from the queue, opens each asset page, clicks every non-JPG download
    link and books the outcome in the history, the counters, the failure
    log and the persisted queue snapshot.

    The browser, the clock, the hotkey and the download directory are not
    modelled as effects: each iteration receives the directory listing, the
    stop flag and the outcome of its asset page as parameters.
 */
module AmbientRunner {
  import opened Wrappers
  import opened Text
  import opened Seqs
  import opened FailureLog
  import opened AmbientIndex
  import opened AmbientPage

  /** The full runner or the test runner limited to `TestItemLimit` items. */
  datatype Variant = Full | Test

  /** At this many partial downloads the loop waits instead of dispatching. */
  const ConcurrentLimit: nat := 8

  /** The suffix Chrome gives a file while it is still downloading. */
  const PartialSuffix: string := ".crdownload"

  // ---------------------------------------------------------------------------
  // The capacity check
  // ---------------------------------------------------------------------------

  predicate IsPartial(f: string) {
    EndsWith(f, PartialSuffix)
  }

  /** `get_active_downloads`: the number of directory entries that are
      partial downloads. */
  function ActiveDownloads(listing: seq<string>): (n: nat)
    ensures n <= |listing|
    ensures n == 0 <==> forall f :: f in listing ==> !IsPartial(f)
  {
    var partial := Filter(listing, IsPartial);
    assert partial != [] ==> partial[0] in partial;
    |partial|
  }

  /** A directory listing names each file once, so the count is the number
      of distinct partial files. */
  lemma ActiveDownloadsDistinct(listing: seq<string>)
    requires NoDups(listing)
    ensures ActiveDownloads(listing) == |set f | f in listing && IsPartial(f)|
  {
    var partial := Filter(listing, IsPartial);
    FilterNoDups(listing, IsPartial);
    DistinctCount(partial);
    assert Elements(partial) == set f | f in listing && IsPartial(f);
  }

  // ---------------------------------------------------------------------------
  // The runner state and one iteration
  // ---------------------------------------------------------------------------

  datatype Stats = Stats(success: nat, failed: nat)

  /** The state the loop carries: the in-memory queue, the last queue
      snapshot written to the queue file, the ids appended to the history
      file during this session, the counters, the test runner's
      `session_count` and the rows written to the failure log. */
  datatype Runner = Runner(
    queue: seq<string>,
    persisted: seq<string>,
    history: seq<string>,
    stats: Stats,
    sessionCount: nat,
    failures: seq<FailureRecord>)

  /** The failure reason logged when a page has no download links. */
  function NoLinksReason(v: Variant): string {
    match v
    case Full => "No links found on page"
    case Test => "No download links found"
  }

  /** The asset's page ended with at least one successful click. */
  predicate Succeeded(o: Outcome) {
    o.Completed? && o.pass.clicked > 0
  }

  /** The failure rows an asset's outcome logs. */
  function OutcomeRows(v: Variant, id: string, o: Outcome): (rows: seq<FailureRecord>)
    ensures !o.Completed? ==> |rows| == 1 && rows[0].assetId == id
    ensures o.Completed? ==> |rows| == |o.pass.errors|
    ensures forall k :: 0 <= k < |rows| ==> rows[k].assetId == id
  {
    match o
    case Crashed(e) => [FailureRecord(id, "CRITICAL", e)]
    case NoLinks => [FailureRecord(id, "ALL", NoLinksReason(v))]
    case Completed(p) =>
      seq(|p.errors|, k requires 0 <= k < |p.errors| => FailureRecord(id, p.errors[k].fileName, p.errors[k].message))
  }

  /** An iteration that gets past the capacity check: pop the head of the
      queue and book the outcome of its page. */
  function Dispatch(v: Variant, s: Runner, o: Outcome): (t: Runner)
    requires s.queue != []
    ensures t.queue == s.queue[1..]
    ensures t.persisted == (if o == NoLinks then s.persisted else t.queue)
    ensures Succeeded(o) ==> t.history == s.history + [s.queue[0]] && t.stats.success == s.stats.success + 1
    ensures !Succeeded(o) ==> t.history == s.history && t.stats.success == s.stats.success
    ensures t.stats.failed == s.stats.failed + 1 <==> !o.Completed?
    ensures t.stats.failed == s.stats.failed || t.stats.failed == s.stats.failed + 1
    ensures t.sessionCount == s.sessionCount + 1 <==> v == Test && o.Completed?
    ensures t.sessionCount == s.sessionCount || t.sessionCount == s.sessionCount + 1
    ensures t.failures == s.failures + OutcomeRows(v, s.queue[0], o)
  {
    var id := s.queue[0];
    var rest := s.queue[1..];
    var rows := OutcomeRows(v, id, o);
    match o
    case Crashed(_) =>
      s.(queue := rest, persisted := rest,
         stats := s.stats.(failed := s.stats.failed + 1),
         failures := s.failures + rows)
    case NoLinks =>
      s.(queue := rest,
         stats := s.stats.(failed := s.stats.failed + 1),
         failures := s.failures + rows)
    case Completed(pass) =>
      var ok := pass.clicked > 0;
      s.(queue := rest, persisted := rest,
         history := if ok then s.history + [id] else s.history,
         stats := if ok then s.stats.(success := s.stats.success + 1) else s.stats,
         sessionCount := if v == Test then s.sessionCount + 1 else s.sessionCount,
         failures := s.failures + rows)
  }

  /** How one asset page is booked, in terms of the page itself: the id
      enters the history and the success count exactly when a non-JPG link
      was clicked, the failure count exactly when the page raised or had no
      links, the snapshot is rewritten unless the page had no links, and a
      completed page logs one row per failing non-JPG link, in page order. */
  lemma PageBookkeeping(v: Variant, s: Runner, page: Page)
    requires s.queue != []
    ensures var t, id := Dispatch(v, s, Classify(page)), s.queue[0];
            && (t.history == s.history + [id] <==> Downloaded(page))
            && (t.stats.success == s.stats.success + 1 <==> Downloaded(page))
            && (t.stats.failed == s.stats.failed + 1 <==> !IsCompleted(page))
            && t.persisted == (if IsEmptyPage(page) then s.persisted else t.queue)
            && (page.PageRaised? ==> t.failures == s.failures + [FailureRecord(id, "CRITICAL", page.error)])
            && (IsEmptyPage(page) ==> t.failures == s.failures + [FailureRecord(id, "ALL", NoLinksReason(v))])
  {
    var t := Dispatch(v, s, Classify(page));
    if !Downloaded(page) {
      assert |t.history| == |s.history|;
    }
  }

  /** `rows` are the rows logged for the raising links `fails` of asset `id`:
      each link's label and its click's error message. */
  predicate RowsOfFails(rows: seq<FailureRecord>, id: string, fails: seq<Link>) {
    |rows| == |fails|
    && forall k :: 0 <= k < |rows| ==>
         fails[k].click.ClickRaised? && rows[k] == FailureRecord(id, Label(fails[k]), fails[k].click.error)
  }

  lemma ErrorRows(v: Variant, id: string, p: Pass, fails: seq<Link>)
    requires ErrorsMatch(p.errors, fails)
    ensures RowsOfFails(OutcomeRows(v, id, Completed(p)), id, fails)
  {
  }

  /** The rows a completed page logs are its failing non-JPG links' labels
      and click errors, in page order. */
  lemma CompletedPageRows(v: Variant, s: Runner, page: Page)
    requires s.queue != [] && IsCompleted(page)
    ensures var t := Dispatch(v, s, Classify(page));
            s.failures <= t.failures && RowsOfFails(t.failures[|s.failures|..], s.queue[0], Filter(page.links, Fails))
  {
    var o := Classify(page);
    var t := Dispatch(v, s, o);
    CompletedErrors(page);
    ErrorRows(v, s.queue[0], o.pass, Filter(page.links, Fails));
    assert t.failures[|s.failures|..] == OutcomeRows(v, s.queue[0], o);
  }

  /** After an asset page without links the snapshot is not rewritten, so
      the popped id is still in the queue file. */
  lemma EmptyPageLeavesStaleSnapshot(v: Variant, s: Runner)
    requires s.queue != [] && s.persisted == s.queue
    ensures var t := Dispatch(v, s, NoLinks);
            s.queue[0] in t.persisted && |t.persisted| == |t.queue| + 1
  {
  }

  /** One pass of the `while` body: wait when the directory is at capacity,
      otherwise dispatch the head of the queue. */
  function Step(v: Variant, s: Runner, listing: seq<string>, o: Outcome): (t: Runner)
    requires s.queue != []
    ensures t == s <==> ActiveDownloads(listing) >= ConcurrentLimit
    ensures ActiveDownloads(listing) < ConcurrentLimit ==> t.queue == s.queue[1..]
  {
    if ActiveDownloads(listing) >= ConcurrentLimit then s else Dispatch(v, s, o)
  }

  // ---------------------------------------------------------------------------
  // The loop
  // ---------------------------------------------------------------------------

  /** What the outside world contributes to one loop iteration: whether the
      stop hotkey has been pressed, the download directory's listing at the
      capacity check, and the outcome (`Classify`) of the asset page the
      iteration opens if it dispatches. */
  datatype Observation = Observation(stop: bool, listing: seq<string>, outcome: Outcome)

  /** The loop condition. */
  predicate Continues(v: Variant, s: Runner, stop: bool) {
    s.queue != [] && !stop && (v == Test ==> s.sessionCount < TestItemLimit)
  }

  /** The state after the loop has run through the given observations (or
      stopped earlier because its condition failed). */
  function Run(v: Variant, s: Runner, obs: seq<Observation>): (t: Runner)
    ensures IsSuffix(t.queue, s.queue)
    ensures s.queue == [] ==> t == s
    decreases |obs|
  {
    if obs == [] || !Continues(v, s, obs[0].stop) then s
    else
      var next := Step(v, s, obs[0].listing, obs[0].outcome);
      var t := Run(v, next, obs[1..]);
      if ActiveDownloads(obs[0].listing) < ConcurrentLimit then SuffixOfTail(t.queue, s.queue); t else t
  }

  /** The ids the loop popped, in order. */
  function Dispatched(v: Variant, s: Runner, obs: seq<Observation>): seq<string>
    decreases |obs|
  {
    if obs == [] || !Continues(v, s, obs[0].stop) then []
    else
      var next := Step(v, s, obs[0].listing, obs[0].outcome);
      (if ActiveDownloads(obs[0].listing) >= ConcurrentLimit then [] else [s.queue[0]])
        + Dispatched(v, next, obs[1..])
  }

  /** The queue is consumed strictly from the front: the popped ids followed
      by what is left are the queue the loop started with. */
  lemma {:induction false} RunIsFifo(v: Variant, s: Runner, obs: seq<Observation>)
    ensures s.queue == Dispatched(v, s, obs) + Run(v, s, obs).queue
    decreases |obs|
  {
    if obs != [] && Continues(v, s, obs[0].stop) {
      var next := Step(v, s, obs[0].listing, obs[0].outcome);
      var t, d := Run(v, next, obs[1..]), Dispatched(v, next, obs[1..]);
      RunUnfold(v, s, obs);
      RunIsFifo(v, next, obs[1..]);
      if ActiveDownloads(obs[0].listing) < ConcurrentLimit {
        HeadThen(s.queue, d, t.queue);
      } else {
        assert Dispatched(v, s, obs) == d;
      }
    }
  }

  /** An id is dispatched at most once, and never while still queued, when
      the queue started without duplicates. */
  lemma RunNoRetry(v: Variant, s: Runner, obs: seq<Observation>)
    requires NoDups(s.queue)
    ensures NoDups(Dispatched(v, s, obs))
    ensures forall x :: x in Dispatched(v, s, obs) ==> x !in Run(v, s, obs).queue
  {
    RunIsFifo(v, s, obs);
    NoDupsSplit(Dispatched(v, s, obs), Run(v, s, obs).queue);
  }

  /** The history only grows during a session, one line per success. */
  lemma {:induction false} RunHistoryGrows(v: Variant, s: Runner, obs: seq<Observation>)
    ensures var t := Run(v, s, obs);
            s.history <= t.history && |t.history| - |s.history| == t.stats.success - s.stats.success
    decreases |obs|
  {
    if obs != [] && Continues(v, s, obs[0].stop) {
      RunHistoryGrows(v, Step(v, s, obs[0].listing, obs[0].outcome), obs[1..]);
    }
  }

  /** The loop test ends the loop at once, with nothing changed and
      nothing dispatched, on each of its stop conditions: an empty queue,
      the stop hotkey, and in the test runner `TestItemLimit` completed
      sessions. */
  lemma RunStops(v: Variant, s: Runner, obs: seq<Observation>)
    requires s.queue == [] || (obs != [] && obs[0].stop) || (v == Test && s.sessionCount >= TestItemLimit)
    ensures Run(v, s, obs) == s
    ensures Dispatched(v, s, obs) == []
  {
  }

  /** One turn of the loop: the run continues from the stepped state, and
      the popped id, if any, heads the dispatched ids. */
  lemma RunUnfold(v: Variant, s: Runner, obs: seq<Observation>)
    requires obs != [] && Continues(v, s, obs[0].stop)
    ensures var next := Step(v, s, obs[0].listing, obs[0].outcome);
            && Run(v, s, obs) == Run(v, next, obs[1..])
            && Dispatched(v, s, obs) ==
                 (if ActiveDownloads(obs[0].listing) < ConcurrentLimit then [s.queue[0]] else [])
                 + Dispatched(v, next, obs[1..])
  {
  }

  /** A step leaves the history alone or appends the popped id. */
  lemma StepHistory(v: Variant, s: Runner, listing: seq<string>, o: Outcome)
    requires s.queue != []
    ensures var t := Step(v, s, listing, o);
            && (ActiveDownloads(listing) >= ConcurrentLimit ==> t.history == s.history)
            && (t.history == s.history || t.history == s.history + [s.queue[0]])
            && s.history <= t.history
  {
  }

  /** The ids the history gains are dispatched ids, in dispatch order. */
  lemma {:induction false} RunHistory(v: Variant, s: Runner, obs: seq<Observation>)
    ensures var t := Run(v, s, obs);
            s.history <= t.history && IsSubseq(t.history[|s.history|..], Dispatched(v, s, obs))
    decreases |obs|
  {
    if obs != [] && Continues(v, s, obs[0].stop) {
      var next := Step(v, s, obs[0].listing, obs[0].outcome);
      var t := Run(v, next, obs[1..]);
      var d := Dispatched(v, next, obs[1..]);
      RunUnfold(v, s, obs);
      StepHistory(v, s, obs[0].listing, obs[0].outcome);
      RunHistory(v, next, obs[1..]);
      if ActiveDownloads(obs[0].listing) < ConcurrentLimit {
        SubseqGrowth(s.history, next.history, t.history, s.queue[0], d);
      } else {
        assert Dispatched(v, s, obs) == d;
      }
    }
  }

  /** Every pending id is always still in the persisted snapshot: restarting
      from the queue file can repeat an id but never loses one. */
  lemma {:induction false} RunKeepsPendingPersisted(v: Variant, s: Runner, obs: seq<Observation>)
    requires IsSuffix(s.queue, s.persisted)
    ensures IsSuffix(Run(v, s, obs).queue, Run(v, s, obs).persisted)
    decreases |obs|
  {
    if obs != [] && Continues(v, s, obs[0].stop) {
      var next := Step(v, s, obs[0].listing, obs[0].outcome);
      if next != s {
        SuffixTail(s.queue, s.persisted);
      }
      RunKeepsPendingPersisted(v, next, obs[1..]);
    }
  }

  /** Bookkeeping of the test runner: every dispatched id either completes
      (and counts towards the session) or fails, never both. */
  lemma {:induction false} RunTestAccounting(s: Runner, obs: seq<Observation>)
    ensures var t := Run(Test, s, obs);
            |Dispatched(Test, s, obs)| == (t.sessionCount - s.sessionCount) + (t.stats.failed - s.stats.failed)
            && t.stats.success - s.stats.success <= t.sessionCount - s.sessionCount
            && (s.sessionCount <= TestItemLimit ==> t.sessionCount <= TestItemLimit)
    decreases |obs|
  {
    if obs != [] && Continues(Test, s, obs[0].stop) {
      var next := Step(Test, s, obs[0].listing, obs[0].outcome);
      RunTestAccounting(next, obs[1..]);
    }
  }

  /** In either runner each dispatched id ends as at most one of a success
      and a failure. */
  lemma {:induction false} RunOutcomesBounded(v: Variant, s: Runner, obs: seq<Observation>)
    ensures var t := Run(v, s, obs);
            (t.stats.success - s.stats.success) + (t.stats.failed - s.stats.failed) <= |Dispatched(v, s, obs)|
    decreases |obs|
  {
    if obs != [] && Continues(v, s, obs[0].stop) {
      var next := Step(v, s, obs[0].listing, obs[0].outcome);
      RunOutcomesBounded(v, next, obs[1..]);
    }
  }

  // ---------------------------------------------------------------------------
  // Starting a session
  // ---------------------------------------------------------------------------

  /** The runner before the loop: the queue file's `pending` list when it is
      non-empty, otherwise a fresh index filtered against the history. The
      snapshot equals the queue, which is either the file's content or was
      just written to it. */
  function Initialize(v: Variant, pending: seq<string>, blocks: seq<Block>, historyText: string): (s: Runner)
    ensures s.persisted == s.queue && s.history == [] && s.failures == []
    ensures s.stats == Stats(0, 0) && s.sessionCount == 0
    ensures pending != [] ==> s.queue == pending
    ensures pending == [] ==> IsSubseq(s.queue, ExtractIds(blocks))
    ensures pending == [] ==> forall x :: x in s.queue ==> x !in ParseHistory(historyText)
    ensures pending == [] && v == Test ==> |s.queue| <= TestItemLimit
    ensures pending == [] && v == Full ==> s.queue == Unprocessed(ExtractIds(blocks), ParseHistory(historyText))
    ensures pending == [] && v == Test ==> s.queue == TestIndex(ExtractIds(blocks), ParseHistory(historyText))
  {
    var processed := ParseHistory(historyText);
    var ids := ExtractIds(blocks);
    var queue :=
      if pending != [] then pending
      else if v == Full then Unprocessed(ids, processed)
      else TestIndex(ids, processed);
    Runner(queue, queue, [], Stats(0, 0), 0, [])
  }

  /** Ids recorded during a session are skipped by the next session's
      index: append them to a terminated history, read it back, and none of
      them survives the filter. */
  lemma NextSessionSkipsDownloaded(v: Variant, s: Runner, obs: seq<Observation>, prior: string, ids: seq<string>)
    requires s.history == []
    requires forall k :: 0 <= k < |s.queue| ==> IsHistoryEntry(s.queue[k])
    requires EndsLine(prior)
    ensures var t := Run(v, s, obs);
            forall x :: x in t.history ==> x !in Unprocessed(ids, ParseHistory(prior + HistoryText(t.history)))
  {
    var t := Run(v, s, obs);
    var d := Dispatched(v, s, obs);
    RunHistory(v, s, obs);
    RunIsFifo(v, s, obs);
    assert t.history[|s.history|..] == t.history;
    SubseqElements(t.history, d);
    forall k | 0 <= k < |t.history| ensures IsHistoryEntry(t.history[k]) {
      var x := t.history[k];
      assert x in d;
      var i :| 0 <= i < |d| && d[i] == x;
      assert s.queue[i] == x;
    }
    HistoryRoundTrip(prior, t.history);
  }
}

=== FILE: c4d_items.dfy ===
/** The material loop of both C4DCenter scrapers: the product URLs of a
    library page, the slug and duplicate check of each, the download
    bookkeeping and the session totals.

    The browser and the download directory are parameters: each library
    page is given by what loading it yields, and each product by the
    directory listing at its duplicate check and what visiting it did.
 */
module C4DItems {
  import opened Wrappers
  import opened Text
  import opened Seqs
  import opened C4DValidate
  import opened C4DPages

  // ---------------------------------------------------------------------------
  // Slugs and the duplicate check
  // ---------------------------------------------------------------------------

  predicate IsSlash(c: char) {
    c == '/'
  }

  /** `url.strip("/").split("/")[-1]`. */
  function Slug(url: string): (r: string)
    ensures NoneWhere(r, IsSlash)
  {
    LastPiece(StripWhere(url, IsSlash), IsSlash)
  }

  /** The slug is a piece of the URL: a slash-free run of its characters. */
  lemma SlugInUrl(url: string)
    ensures |Slug(url)| <= |url|
    ensures forall c :: c in Slug(url) ==> c in url
  {
    var stripped := StripWhere(url, IsSlash);
    LastPieceIsSuffix(stripped, IsSlash);
    forall c | c in Slug(url) ensures c in url {
      assert c in stripped;
      StripWhereChars(url, IsSlash, c);
    }
  }

  /** Stripping the slashes from `x + "/" + name + t` ends the result
      exactly at the end of `name`, and starts it at or before `name`. */
  lemma StripProductUrl(x: string, name: string, t: string)
    requires name != [] && NoneWhere(name, IsSlash)
    requires forall i :: 0 <= i < |t| ==> IsSlash(t[i])
    ensures var u := x + "/" + name + t;
            && LeadingCount(u, IsSlash) <= |x| + 1
            && StripWhere(u, IsSlash) == u[LeadingCount(u, IsSlash)..|x| + 1 + |name|]
  {
    var u := x + "/" + name + t;
    var r := StripWhere(u, IsSlash);
    var lead := LeadingCount(u, IsSlash);
    var p := |x| + 1;
    var e := p + |name|;
    assert u[p] == name[0] && !IsSlash(u[p]);
    assert u[e - 1] == name[|name| - 1] && !IsSlash(u[e - 1]);
    assert lead <= p && e <= lead + |r|;
  }

  /** The slug of a product address `x + "/" + name`, with or without
      trailing slashes, is `name`. */
  lemma SlugOfProductUrl(x: string, name: string, t: string)
    requires name != [] && NoneWhere(name, IsSlash)
    requires forall i :: 0 <= i < |t| ==> IsSlash(t[i])
    ensures Slug(x + "/" + name + t) == name
  {
    var u := x + "/" + name + t;
    var lead := LeadingCount(u, IsSlash);
    StripProductUrl(x, name, t);
    ProductUrlSlice(x, name, t, lead);
    if lead == |x| + 1 {
      SplitNoSeparator(name, IsSlash);
    } else {
      LastPieceAfterSeparator(x[lead..], '/', name, IsSlash);
    }
  }

  /** The part of `x + "/" + name + t` from `lead` to the end of `name`. */
  lemma ProductUrlSlice(x: string, name: string, t: string, lead: nat)
    requires lead <= |x| + 1
    ensures var u := x + "/" + name + t;
            u[lead..|x| + 1 + |name|] == if lead == |x| + 1 then name else x[lead..] + "/" + name
  {
  }

  /** The duplicate check `any(slug in f.lower() for f in listing)`. */
  predicate AlreadyExists(slug: string, listing: seq<string>) {
    exists f :: f in listing && Contains(Lower(f), slug)
  }

  /** Python's `"" in s` holds for every `s`: an empty slug matches any
      directory entry, so such a product is skipped unless the directory is
      empty. */
  lemma EmptySlugMatchesAnything(listing: seq<string>)
    ensures AlreadyExists([], listing) <==> listing != []
  {
    if listing != [] {
      assert listing[0] in listing && [] <= Lower(listing[0]);
    }
  }

  // ---------------------------------------------------------------------------
  // New-file detection (root script)
  // ---------------------------------------------------------------------------

  /** Chrome's in-progress download names. */
  predicate IsTemp(f: string) {
    EndsWith(f, ".tmp") || EndsWith(f, ".crdownload")
  }

  function IsNewIn(before: seq<string>): string -> bool {
    f => f !in before && !IsTemp(f)
  }

  /** `[f for f in list(files_after - files_before) if not
      f.endswith(('.tmp', '.crdownload'))]`, listed in the order of the
      later listing. */
  function NewFiles(before: seq<string>, after: seq<string>): (r: seq<string>)
    ensures forall f :: f in r <==> f in after && f !in before && !IsTemp(f)
    ensures IsSubseq(r, after)
  {
    FilterIsSubseq(after, IsNewIn(before));
    Filter(after, IsNewIn(before))
  }

  /** Against the directory as it was, exactly the finished files that
      were added are new. */
  lemma NewFilesOfAdded(before: seq<string>, added: seq<string>)
    requires forall f :: f in added ==> f !in before && !IsTemp(f)
    ensures NewFiles(before, before + added) == added
  {
    FilterAppend(before, added, IsNewIn(before));
    FilterOfNone(before, IsNewIn(before));
    FilterOfAll(added, IsNewIn(before));
  }

  // ---------------------------------------------------------------------------
  // One product
  // ---------------------------------------------------------------------------

  /** What visiting a product page did: `driver.get(url)` raised (outside
      the product's own `try`); the product's own `try` raised
      (`ButtonRaised`: finding or clicking the download button, and in the
      root script also `execute_script`, `wait_for_download_robust` or the
      `os.listdir` after it), which only counts an error; or everything went
      through — with, for the root script, the result of
      `wait_for_download_robust` and the directory listing after it. */
  datatype Attempt = NavigationRaised | ButtonRaised | ClickDone(settled: bool, after: seq<string>)

  /** A product as met by the loop: the directory listing at its duplicate
      check and what visiting it did. */
  datatype Visit = Visit(listing: seq<string>, attempt: Attempt)

  datatype Stats = Stats(totalFound: nat, downloaded: nat, skipped: nat, errors: nat)

  /** The counters and `downloaded_filenames`. */
  datatype Session = Session(stats: Stats, names: seq<string>)

  /** A product's effect, and whether it left the page's `try` block. */
  datatype ItemResult = ItemResult(session: Session, aborted: bool)

  /** The name the root script records for a finished download, if any. */
  function Recorded(before: seq<string>, attempt: Attempt): Option<string> {
    if attempt.ClickDone? && attempt.settled then
      var added := NewFiles(before, attempt.after);
      if added != [] then Some(added[0]) else None
    else None
  }

  /** One iteration of `for url in urls`. */
  function ProcessItem(script: Script, s: Session, url: string, v: Visit): (r: ItemResult)
    ensures r.aborted <==> !AlreadyExists(Slug(url), v.listing) && v.attempt.NavigationRaised?
    ensures r.aborted ==> r.session == s
    ensures AlreadyExists(Slug(url), v.listing) ==>
              r.session == s.(stats := s.stats.(skipped := s.stats.skipped + 1))
    ensures !AlreadyExists(Slug(url), v.listing) ==> r.session.stats.skipped == s.stats.skipped
    ensures r.session.stats.totalFound == s.stats.totalFound
    ensures r.session.stats.errors == s.stats.errors + 1 <==>
              !AlreadyExists(Slug(url), v.listing) && v.attempt.ButtonRaised?
    ensures r.session.stats.errors <= s.stats.errors + 1
    ensures s.names <= r.session.names
    ensures |r.session.names| - |s.names| == r.session.stats.downloaded - s.stats.downloaded <= 1
    ensures Counted(r.session) - Counted(s) <= 1
  {
    var slug := Slug(url);
    if AlreadyExists(slug, v.listing) then
      ItemResult(s.(stats := s.stats.(skipped := s.stats.skipped + 1)), false)
    else
      match v.attempt
      case NavigationRaised => ItemResult(s, true)
      case ButtonRaised => ItemResult(s.(stats := s.stats.(errors := s.stats.errors + 1)), false)
      case ClickDone(_, _) =>
        var name :=
          match script
          case Root => Recorded(v.listing, v.attempt)
          case Sub => Some(slug);
        match name
        case None => ItemResult(s, false)
        case Some(n) =>
          ItemResult(Session(s.stats.(downloaded := s.stats.downloaded + 1), s.names + [n]), false)
  }

  /** The products accounted for so far: downloaded, skipped or failed. */
  function Counted(s: Session): nat {
    s.stats.downloaded + s.stats.skipped + s.stats.errors
  }

  /** What a visited product adds to `downloaded_filenames`: for the root
      script the first finished file that appeared, once the wait saw the
      download settle; for the other script the slug, after any click. */
  lemma ItemDownload(script: Script, s: Session, url: string, v: Visit)
    requires !AlreadyExists(Slug(url), v.listing)
    ensures var r := ProcessItem(script, s, url, v).session;
            && (script == Sub ==>
                  (r.names == s.names + [Slug(url)] <==> v.attempt.ClickDone?))
            && (script == Root ==>
                  (r.stats.downloaded == s.stats.downloaded + 1 <==> Recorded(v.listing, v.attempt).Some?))
            && (script == Root && Recorded(v.listing, v.attempt).Some? ==>
                  r.names == s.names + [Recorded(v.listing, v.attempt).value])
  {
    var r := ProcessItem(script, s, url, v).session;
    if script == Sub && !v.attempt.ClickDone? {
      assert |r.names| == |s.names|;
    }
  }

  /** A recorded file name is one of the finished files the download added. */
  lemma RecordedIsNew(before: seq<string>, attempt: Attempt)
    requires Recorded(before, attempt).Some?
    ensures var n := Recorded(before, attempt).value;
            n in attempt.after && n !in before && !IsTemp(n)
  {
    var added := NewFiles(before, attempt.after);
    assert added[0] in added;
  }

  // ---------------------------------------------------------------------------
  // One library page
  // ---------------------------------------------------------------------------

  /** The products of a page, in order, until one aborts the page. */
  function ProcessUrls(script: Script, s: Session, urls: seq<string>, visit: string -> Visit): (r: ItemResult)
    ensures r.session.stats.totalFound == s.stats.totalFound
    ensures s.names <= r.session.names
    ensures |r.session.names| - |s.names| == r.session.stats.downloaded - s.stats.downloaded
    ensures Counted(s) <= Counted(r.session) <= Counted(s) + |urls|
    ensures RecordsWell(script, s.names, r.session.names)
    decreases |urls|
  {
    if urls == [] then ItemResult(s, false)
    else
      var first := ProcessItem(script, s, urls[0], visit(urls[0]));
      if first.aborted then first
      else
        var rest := ProcessUrls(script, first.session, urls[1..], visit);
        RecordsWellTrans(script, s.names, first.session.names, rest.session.names);
        rest
  }

  /** The names added to `downloaded_filenames` are what the script
      promises: finished (non-temporary) files for the root script, slugs
      without a slash for the other. */
  predicate RecordsWell(script: Script, before: seq<string>, after: seq<string>) {
    before <= after
    && forall k :: |before| <= k < |after| ==>
         (script == Root ==> !IsTemp(after[k])) && (script == Sub ==> NoneWhere(after[k], IsSlash))
  }

  lemma RecordsWellTrans(script: Script, a: seq<string>, b: seq<string>, c: seq<string>)
    requires RecordsWell(script, a, b) && RecordsWell(script, b, c)
    ensures RecordsWell(script, a, c)
  {
    forall k | |a| <= k < |c|
      ensures (script == Root ==> !IsTemp(c[k])) && (script == Sub ==> NoneWhere(c[k], IsSlash))
    {
      if k < |b| {
        assert c[k] == b[k];
      }
    }
  }

  /** Every name a product adds is one the script promises. */
  lemma ItemRecordsWell(script: Script, s: Session, url: string, v: Visit)
    ensures RecordsWell(script, s.names, ProcessItem(script, s, url, v).session.names)
  {
    var r := ProcessItem(script, s, url, v).session;
    if |r.names| > |s.names| {
      assert !AlreadyExists(Slug(url), v.listing) && v.attempt.ClickDone?;
      if script == Root {
        RecordedIsNew(v.listing, v.attempt);
      }
    }
  }

  /** With the copy under `C4DCenter-scraper/`, when no product visit
      raises, every product is either downloaded, skipped or counted as an
      error. */
  lemma SubAccountsForAll(s: Session, urls: seq<string>, visit: string -> Visit)
    requires forall u :: u in urls ==> !visit(u).attempt.NavigationRaised?
    ensures Counted(ProcessUrls(Sub, s, urls, visit).session) == Counted(s) + |urls|
    ensures !ProcessUrls(Sub, s, urls, visit).aborted
    decreases |urls|
  {
    if urls != [] {
      var first := ProcessItem(Sub, s, urls[0], visit(urls[0]));
      assert urls[0] in urls;
      assert forall u :: u in urls[1..] ==> u in urls;
      SubAccountsForAll(first.session, urls[1..], visit);
    }
  }

  /** What loading a library page yielded: `driver.get` itself raised
      (outside the page's `try`, ending the session), the product list
      could not be found (the page's `except`), or the product links'
      `href`s and how each product visit goes. */
  datatype LibraryPage =
    | Unreachable
    | ListingRaised
    | Listed(hrefs: seq<string>, visit: string -> Visit)

  /** One iteration of the page loop; `stop` when the session ends. */
  function ProcessPage(script: Script, s: Session, page: LibraryPage): (r: (Session, bool))
    ensures r.1 <==> page.Unreachable?
    ensures page.Listed? ==> r.0.stats.totalFound == s.stats.totalFound + |Dedupe(page.hrefs)|
    ensures !page.Listed? ==> r.0 == s
    ensures s.names <= r.0.names
    ensures |r.0.names| - |s.names| == r.0.stats.downloaded - s.stats.downloaded
    ensures Counted(r.0) - Counted(s) <= r.0.stats.totalFound - s.stats.totalFound
    ensures RecordsWell(script, s.names, r.0.names)
  {
    match page
    case Unreachable => (s, true)
    case ListingRaised => (s, false)
    case Listed(hrefs, visit) =>
      var urls := Dedupe(hrefs);
      var found := s.(stats := s.stats.(totalFound := s.stats.totalFound + |urls|));
      (ProcessUrls(script, found, urls, visit).session, false)
  }

  // ---------------------------------------------------------------------------
  // The session
  // ---------------------------------------------------------------------------

  /** No product link on the page leads to a visit whose `driver.get` raises. */
  predicate NavigationSafe(page: LibraryPage) {
    page.Listed? ==> forall u :: u in page.hrefs ==> !page.visit(u).attempt.NavigationRaised?
  }

  /** With the copy under `C4DCenter-scraper/`, a page whose product visits
      do not raise accounts for every product it finds. */
  lemma SubPageAccountsForAll(s: Session, page: LibraryPage)
    requires NavigationSafe(page)
    ensures var r := ProcessPage(Sub, s, page).0;
            Counted(r) - Counted(s) == r.stats.totalFound - s.stats.totalFound
  {
    if page.Listed? {
      var urls := Dedupe(page.hrefs);
      var found := s.(stats := s.stats.(totalFound := s.stats.totalFound + |urls|));
      assert forall u :: u in urls ==> u in page.hrefs;
      SubAccountsForAll(found, urls, page.visit);
      assert ProcessPage(Sub, s, page).0 == ProcessUrls(Sub, found, urls, page.visit).session;
    }
  }

  /** The products a session finds on `pages`: the distinct product links
      of every page that lists them, up to the first page that cannot be
      loaded. */
  function FoundOn(pages: seq<int>, world: string -> LibraryPage): nat
    decreases |pages|
  {
    if pages == [] then 0
    else
      match world(PageUrl(pages[0]))
      case Unreachable => 0
      case ListingRaised => FoundOn(pages[1..], world)
      case Listed(hrefs, _) => |Dedupe(hrefs)| + FoundOn(pages[1..], world)
  }

  /** The page loop over `pages`; `world` gives what loading each listing
      URL yields. */
  function RunPages(script: Script, s: Session, pages: seq<int>, world: string -> LibraryPage): (t: Session)
    ensures t.stats.totalFound == s.stats.totalFound + FoundOn(pages, world)
    ensures s.names <= t.names
    ensures |t.names| - |s.names| == t.stats.downloaded - s.stats.downloaded
    ensures Counted(t) - Counted(s) <= t.stats.totalFound - s.stats.totalFound
    ensures RecordsWell(script, s.names, t.names)
    decreases |pages|
  {
    if pages == [] then s
    else
      var r := ProcessPage(script, s, world(PageUrl(pages[0])));
      if r.1 then r.0
      else
        var t := RunPages(script, r.0, pages[1..], world);
        RecordsWellTrans(script, s.names, r.0.names, t.names);
        t
  }

  /** With the copy under `C4DCenter-scraper/`, when no product visit
      raises, the page loop accounts for every product it finds. */
  lemma {:induction false} SubRunAccountsForAll(s: Session, pages: seq<int>, world: string -> LibraryPage)
    requires forall k :: 0 <= k < |pages| ==> NavigationSafe(world(PageUrl(pages[k])))
    ensures var t := RunPages(Sub, s, pages, world);
            Counted(t) - Counted(s) == t.stats.totalFound - s.stats.totalFound
    decreases |pages|
  {
    if pages != [] {
      var r := ProcessPage(Sub, s, world(PageUrl(pages[0])));
      SubPageAccountsForAll(s, world(PageUrl(pages[0])));
      if !r.1 {
        assert forall k :: 0 <= k < |pages[1..]| ==> pages[1..][k] == pages[k + 1];
        SubRunAccountsForAll(r.0, pages[1..], world);
      }
    }
  }

  const Fresh: Session := Session(Stats(0, 0, 0, 0), [])

  /** A whole session from the entered start and end pages. */
  function Scrape(script: Script, start: int, end: int, world: string -> LibraryPage): Session {
    RunPages(script, Fresh, PagesVisited(script, start, end), world)
  }

  /** At the end of a session `downloaded_filenames` has one entry per
      counted download, each a finished file (root script) or a slug
      (other script), and no more products were accounted for than were
      found. */
  lemma ScrapeTotals(script: Script, start: int, end: int, world: string -> LibraryPage)
    ensures var t := Scrape(script, start, end, world);
            && |t.names| == t.stats.downloaded
            && t.stats.totalFound == FoundOn(PagesVisited(script, start, end), world)
            && t.stats.downloaded + t.stats.skipped + t.stats.errors <= t.stats.totalFound
            && forall k :: 0 <= k < |t.names| ==>
                 (script == Root ==> !IsTemp(t.names[k])) && (script == Sub ==> NoneWhere(t.names[k], IsSlash))
  {
  }

  /** With the copy under `C4DCenter-scraper/`, when no product visit
      raises, a whole session ends with `downloaded + skipped + errors ==
      total_found`. */
  lemma SubScrapeAccountsForAll(start: int, end: int, world: string -> LibraryPage)
    requires var pages := PagesVisited(Sub, start, end);
             forall k :: 0 <= k < |pages| ==> NavigationSafe(world(PageUrl(pages[k])))
    ensures var t := Scrape(Sub, start, end, world);
            t.stats.downloaded + t.stats.skipped + t.stats.errors == t.stats.totalFound
  {
    SubRunAccountsForAll(Fresh, PagesVisited(Sub, start, end), world);
  }

  // ---------------------------------------------------------------------------
  // The session log
  // ---------------------------------------------------------------------------

  predicate IsNewline(c: char) {
    c == '\n'
  }

  /** `"\n".join(names)`. */
  function JoinLines(names: seq<string>): string
    decreases |names|
  {
    if names == [] then []
    else if |names| == 1 then names[0]
    else names[0] + "\n" + JoinLines(names[1..])
  }

  /** Splitting the log at its newlines gives back the recorded names, as
      long as none of them contains a newline. */
  lemma {:induction false} JoinLinesRoundTrip(names: seq<string>)
    requires names != []
    requires forall k :: 0 <= k < |names| ==> NoneWhere(names[k], IsNewline)
    ensures Split(JoinLines(names), IsNewline) == names
    decreases |names|
  {
    if |names| == 1 {
      SplitNoSeparator(names[0], IsNewline);
    } else {
      var rest := names[1..];
      JoinLinesRoundTrip(rest);
      assert JoinLines(names) == names[0] + ['\n'] + JoinLines(rest);
      SplitAtSeparator(names[0], '\n', JoinLines(rest), IsNewline);
      SplitNoSeparator(names[0], IsNewline);
      assert names == [names[0]] + rest;
    }
  }
}

=== FILE: c4d_pages.dfy ===
/** Which library pages a C4DCenter session visits and the address of each:
    the start/end order, the inclusive page range and the listing URL.
 */
module C4DPages {
  import opened Wrappers
  import opened Text
  import opened C4DValidate

  /** The first page of the material library. */
  const BaseUrl: string := "https://c4dcenter.com/material-library/"

  /** The bounds the loop uses: the root script swaps a start page greater
      than the end page, the copy under `C4DCenter-scraper/` keeps them. */
  function PageBounds(script: Script, start: int, end: int): (b: (int, int))
    ensures script == Root ==> b.0 <= b.1
    ensures multiset{b.0, b.1} == multiset{start, end}
    ensures start <= end || script == Sub ==> b == (start, end)
  {
    if script == Root && start > end then (end, start) else (start, end)
  }

  /** `range(first, last + 1)`. */
  function PageRange(first: int, last: int): (r: seq<int>)
    ensures |r| == if first <= last then last - first + 1 else 0
    ensures forall k :: 0 <= k < |r| ==> r[k] == first + k
    decreases last - first
  {
    if first > last then [] else [first] + PageRange(first + 1, last)
  }

  /** The range visits every page from `first` to `last` and nothing else,
      each once and in ascending order. */
  lemma PageRangeVisits(first: int, last: int, n: int)
    ensures n in PageRange(first, last) <==> first <= n <= last
    ensures forall i, j :: 0 <= i < j < |PageRange(first, last)| ==> PageRange(first, last)[i] < PageRange(first, last)[j]
  {
    var r := PageRange(first, last);
    if first <= n <= last {
      assert r[n - first] == n;
    }
  }

  /** The pages a session visits, in order. */
  function PagesVisited(script: Script, start: int, end: int): seq<int> {
    var b := PageBounds(script, start, end);
    PageRange(b.0, b.1)
  }

  /** The root script visits the same pages whichever order the bounds are
      entered in, and always visits both of them. */
  lemma RootOrderIrrelevant(start: int, end: int)
    ensures PagesVisited(Root, start, end) == PagesVisited(Root, end, start)
    ensures start in PagesVisited(Root, start, end) && end in PagesVisited(Root, start, end)
  {
    var b := PageBounds(Root, start, end);
    PageRangeVisits(b.0, b.1, start);
    PageRangeVisits(b.0, b.1, end);
  }

  /** The copy under `C4DCenter-scraper/` does not swap: a start page after
      the end page visits nothing. */
  lemma SubReversedVisitsNothing(start: int, end: int)
    requires start > end
    ensures PagesVisited(Sub, start, end) == []
  {
  }

  const PagePrefix: string := BaseUrl + "page/"

  /** The listing URL of page `n`: the library root for page 1, otherwise
      `BaseUrl + "page/" + str(n) + "/"`. Both scripts build the same
      addresses. */
  function PageUrl(n: int): (url: string)
    ensures BaseUrl <= url
    ensures url == BaseUrl <==> n == 1
  {
    if n == 1 then BaseUrl else PagePrefix + IntToString(n) + "/"
  }

  /** Reads the page number back from a listing URL. */
  function PageNumber(url: string): Option<int> {
    if url == BaseUrl then Some(1)
    else if |url| > |PagePrefix| && PagePrefix <= url && url[|url| - 1] == '/' then
      ParseInt(url[|PagePrefix|..|url| - 1])
    else None
  }

  /** `PageNumber` inverts `PageUrl`. */
  lemma PageUrlRoundTrip(n: int)
    ensures PageNumber(PageUrl(n)) == Some(n)
  {
    if n != 1 {
      var digits := IntToString(n);
      var url := PageUrl(n);
      assert url == PagePrefix + digits + "/";
      assert url[|PagePrefix|..|url| - 1] == digits;
      ParseIntRoundTrip(n);
    }
  }

  /** Distinct pages have distinct addresses. */
  lemma PageUrlInjective(a: int, b: int)
    requires PageUrl(a) == PageUrl(b)
    ensures a == b
  {
    PageUrlRoundTrip(a);
    PageUrlRoundTrip(b);
  }
}

=== FILE: c4d_validate.dfy ===
/** The setup validators of both C4DCenter scrapers: `validate_path`,
    `validate_bool` and `validate_int`. Each receives the user's answer
    after `get_input` has stripped it and either accepts a value or returns
    the error message shown before asking again.

    The root script and the one under `C4DCenter-scraper/` share the logic
    and differ only in their messages, selected by `Script`.
 */
module C4DValidate {
  import opened Wrappers
  import opened Text
  import opened Seqs

  /** `C4Dcenter-materialScraper-1.py` at the repository root, or its copy
      under `C4DCenter-scraper/`. */
  datatype Script = Root | Sub

  // ---------------------------------------------------------------------------
  // validate_path
  // ---------------------------------------------------------------------------

  /** Keeps every character other than `c`. */
  function NotChar(c: char): char -> bool {
    x => x != c
  }

  /** With a one-character pattern, `replace(pat, "")` is a filter. */
  lemma {:induction false} RemoveCharIsFilter(s: string, c: char)
    ensures RemoveAll(s, [c]) == Filter(s, NotChar(c))
    decreases |s|
  {
    if s != [] {
      RemoveCharIsFilter(s[1..], c);
    }
  }

  /** `path.replace('"', '').replace("'", "")`. */
  function Unquote(path: string): (r: string)
    ensures IsSubseq(r, path)
    ensures forall c :: c in r <==> c in path && c != '"' && c != '\''
  {
    var once := RemoveAll(path, "\"");
    var r := RemoveAll(once, "'");
    RemoveCharIsFilter(path, '"');
    RemoveCharIsFilter(once, '\'');
    FilterIsSubseq(path, NotChar('"'));
    FilterIsSubseq(once, NotChar('\''));
    SubseqTrans(r, once, path);
    r
  }

  /** Every character other than a quote keeps its number of occurrences. */
  lemma UnquoteCounts(path: string, c: char)
    requires c != '"' && c != '\''
    ensures multiset(Unquote(path))[c] == multiset(path)[c]
  {
    var once := RemoveAll(path, "\"");
    RemoveCharIsFilter(path, '"');
    RemoveCharIsFilter(once, '\'');
    FilterCount(path, NotChar('"'), c);
    FilterCount(once, NotChar('\''), c);
  }

  /** Removing the quotes a second time changes nothing. */
  lemma UnquoteIdempotent(path: string)
    ensures Unquote(Unquote(path)) == Unquote(path)
  {
    var u := Unquote(path);
    NoQuotesUnchanged(u);
  }

  /** A path without quote characters is left as it is. */
  lemma NoQuotesUnchanged(path: string)
    requires '"' !in path && '\'' !in path
    ensures Unquote(path) == path
  {
    RemoveCharIsFilter(path, '"');
    FilterOfAll(path, NotChar('"'));
    RemoveCharIsFilter(path, '\'');
    FilterOfAll(path, NotChar('\''));
  }

  /** The message for a missing directory the user declined to create. */
  function MissingDirMessage(script: Script): string {
    match script
    case Root => "Please provide an existing directory."
    case Sub => "Invalid directory."
  }

  const EmptyPathMessage: string := "Path cannot be empty."

  /** `validate_path` with the file system as parameters: `pathExists` is
      `os.path.exists`, `answer` is what the user types at the "Create it?"
      prompt (read only when the directory is missing), and `makedirs`
      gives `str(e)` of the exception `os.makedirs` raises, if any. */
  function ValidatePath(script: Script, path: string, pathExists: string -> bool, answer: string,
                        makedirs: string -> Option<string>): (r: Result<string, string>)
    ensures r.Success? ==> r.value == Unquote(path) && r.value != []
    ensures r.Success? ==> '"' !in r.value && '\'' !in r.value
    ensures Unquote(path) == [] ==> r == Failure(EmptyPathMessage)
    ensures Unquote(path) != [] && pathExists(Unquote(path)) ==> r.Success?
    ensures Unquote(path) != [] && !pathExists(Unquote(path)) ==>
              (r.Success? <==> Lower(answer) == "y" && makedirs(Unquote(path)).None?)
    ensures Unquote(path) != [] && !pathExists(Unquote(path)) && Lower(answer) != "y" ==>
              r == Failure(MissingDirMessage(script))
    ensures Unquote(path) != [] && !pathExists(Unquote(path)) && Lower(answer) == "y" && makedirs(Unquote(path)).Some? ==>
              r == Failure(makedirs(Unquote(path)).value)
  {
    var p := Unquote(path);
    if p == [] then Failure(EmptyPathMessage)
    else if !pathExists(p) then
      if Lower(answer) == "y" then
        match makedirs(p)
        case None => Success(p)
        case Some(e) => Failure(e)
      else Failure(MissingDirMessage(script))
    else Success(p)
  }

  /** An accepted path is accepted unchanged when entered again. */
  lemma ValidatePathStable(script: Script, path: string, pathExists: string -> bool, answer: string,
                           makedirs: string -> Option<string>)
    requires ValidatePath(script, path, pathExists, answer, makedirs).Success?
    ensures var p := ValidatePath(script, path, pathExists, answer, makedirs).value;
            ValidatePath(script, p, q => q == p, answer, makedirs) == Success(p)
  {
    UnquoteIdempotent(path);
  }

  // ---------------------------------------------------------------------------
  // validate_bool
  // ---------------------------------------------------------------------------

  function BoolMessage(script: Script): string {
    match script
    case Root => "Please enter 'y' or 'n'."
    case Sub => "Enter 'y' or 'n'."
  }

  /** `validate_bool`: the headless-mode answer. */
  function ValidateBool(script: Script, choice: string): (r: Result<bool, string>)
    ensures r.Success? <==> Lower(choice) in {"y", "yes", "n", "no"}
    ensures r.Success? ==> (r.value <==> Lower(choice) in {"y", "yes"})
    ensures r.Failure? ==> r.error == BoolMessage(script)
  {
    var c := Lower(choice);
    if c == "y" || c == "yes" then Success(true)
    else if c == "n" || c == "no" then Success(false)
    else Failure(BoolMessage(script))
  }

  /** The answer is read case-insensitively. */
  lemma ValidateBoolIgnoresCase(script: Script, choice: string)
    ensures ValidateBool(script, Lower(choice)) == ValidateBool(script, choice)
  {
    LowerIdempotent(choice);
  }

  // ---------------------------------------------------------------------------
  // validate_int
  // ---------------------------------------------------------------------------

  function TooSmallMessage(script: Script): string {
    match script
    case Root => "Page number must be 1 or higher."
    case Sub => "Must be 1 or higher."
  }

  function NotNumberMessage(script: Script): string {
    match script
    case Root => "Please enter a valid number."
    case Sub => "Enter a valid number."
  }

  /** `validate_int`: a page number, over the decimal grammar of `ParseInt`. */
  function ValidateInt(script: Script, val: string): (r: Result<int, string>)
    ensures r.Success? ==> r.value >= 1 && ParseInt(val) == Some(r.value)
    ensures r.Success? <==> ParseInt(val).Some? && ParseInt(val).value >= 1
    ensures r.Failure? ==> (r.error == NotNumberMessage(script) <==> ParseInt(val).None?)
    ensures r.Failure? ==> (r.error == TooSmallMessage(script) <==> ParseInt(val).Some?)
  {
    match ParseInt(val)
    case None => Failure(NotNumberMessage(script))
    case Some(n) => if n < 1 then Failure(TooSmallMessage(script)) else Success(n)
  }

  /** Every page number is accepted when written in decimal, and nothing
      below 1 is: zero and negative numbers get the "1 or higher" message. */
  lemma ValidateIntRoundTrip(script: Script, n: int)
    ensures n >= 1 ==> ValidateInt(script, IntToString(n)) == Success(n)
    ensures n < 1 ==> ValidateInt(script, IntToString(n)) == Failure(TooSmallMessage(script))
  {
    ParseIntRoundTrip(n);
  }

  /** Text without a digit is never a number. */
  lemma ValidateIntNeedsDigit(script: Script, val: string)
    requires forall i :: 0 <= i < |val| ==> !IsDigit(val[i])
    ensures ValidateInt(script, val) == Failure(NotNumberMessage(script))
  {
    ParseIntNeedsDigit(val);
  }
}

=== FILE: failure_log.dfy ===
/** The markdown failure log both AmbientCG runners keep in
    `failed_downloads.md` inside the download directory
    (`log_failure` in either script).
 */
module FailureLog {
  import opened Wrappers
  import opened Text
  import opened Seqs

  /** The three caller-supplied columns of one log row. */
  datatype FailureRecord = FailureRecord(assetId: string, fileName: string, reason: string)

  /** A failure together with the wall-clock time it was logged at, already
      rendered as `%Y-%m-%d %H:%M:%S`; the clock is not part of the model. */
  datatype Entry = Entry(timestamp: string, failure: FailureRecord)

  const HeaderLine: string := "| Timestamp | Asset ID | File Name | Error Reason |\n"
  const RuleLine: string := "| --- | --- | --- | --- |\n"

  /** The two lines a freshly created log starts with. */
  const Header: string := HeaderLine + RuleLine

  /** The markdown table row written for one entry. */
  function FormatRow(e: Entry): string {
    "| " + e.timestamp + " | **" + e.failure.assetId + "** | " + e.failure.fileName + " | " + e.failure.reason + " |\n"
  }

  /** The log's content after `log_failure`; `file` is the content before
      the call, `None` when the file does not exist yet. */
  function Append(file: Option<string>, e: Entry): (r: string)
    ensures file.Some? ==> file.value <= r
    ensures file.None? ==> Header <= r
    ensures EndsWith(r, FormatRow(e))
    ensures |r| == (if file.Some? then |file.value| else |Header|) + |FormatRow(e)|
  {
    (if file.None? then Header else file.value) + FormatRow(e)
  }

  /** The rows of several entries, in logging order. */
  function Rows(entries: seq<Entry>): string
    decreases |entries|
  {
    if entries == [] then [] else FormatRow(entries[0]) + Rows(entries[1..])
  }

  /** The log after a session's entries are logged one by one. */
  function LogAll(file: Option<string>, entries: seq<Entry>): Option<string>
    decreases |entries|
  {
    if entries == [] then file else LogAll(Some(Append(file, entries[0])), entries[1..])
  }

  /** Logging to an existing file only appends rows: nothing is rewritten
      and no second header appears. */
  lemma {:induction false} LogAllExisting(content: string, entries: seq<Entry>)
    ensures LogAll(Some(content), entries) == Some(content + Rows(entries))
    decreases |entries|
  {
    if entries != [] {
      var next := content + FormatRow(entries[0]);
      assert Append(Some(content), entries[0]) == next;
      assert LogAll(Some(content), entries) == LogAll(Some(next), entries[1..]);
      assert Rows(entries) == FormatRow(entries[0]) + Rows(entries[1..]);
      LogAllExisting(next, entries[1..]);
      AppendAssoc(content, FormatRow(entries[0]), Rows(entries[1..]));
    } else {
      assert content + Rows(entries) == content;
    }
  }

  /** Logging to an absent file writes the header once, then the rows. */
  lemma LogAllFresh(entries: seq<Entry>)
    requires entries != []
    ensures LogAll(None, entries) == Some(Header + Rows(entries))
  {
    var first := Header + FormatRow(entries[0]);
    LogAllExisting(first, entries[1..]);
    assert first + Rows(entries[1..]) == Header + Rows(entries);
  }

  // ---------------------------------------------------------------------------
  // Reading a row back
  // ---------------------------------------------------------------------------

  predicate IsBar(c: char) {
    c == '|'
  }

  predicate BarFree(s: string) {
    NoneWhere(s, IsBar)
  }

  /** The text of a table cell written as `" " + text + " "`. */
  function CellText(piece: string): Option<string> {
    if |piece| >= 2 && piece[0] == ' ' && piece[|piece| - 1] == ' ' then Some(piece[1..|piece| - 1]) else None
  }

  /** Recovers the entry from a row of the failure table, if it is one. */
  function DecodeRow(row: string): Option<Entry> {
    var cells := Split(row, IsBar);
    if |cells| != 6 || cells[0] != [] || cells[5] != "\n" then None
    else
      match (CellText(cells[1]), CellText(cells[2]), CellText(cells[3]), CellText(cells[4]))
      case (Some(ts), Some(bold), Some(name), Some(reason)) =>
        if |bold| >= 4 && bold[..2] == "**" && bold[|bold| - 2..] == "**" then
          Some(Entry(ts, FailureRecord(bold[2..|bold| - 2], name, reason)))
        else None
      case _ => None
  }

  /** The cells of a table line after its opening bar: each cell is
      followed by a bar, and the line ends with a newline. */
  function CellsText(cells: seq<string>): string
    decreases |cells|
  {
    if cells == [] then "\n" else cells[0] + ['|'] + CellsText(cells[1..])
  }

  /** A markdown table line with the given cells. */
  function TableLine(cells: seq<string>): string {
    ['|'] + CellsText(cells)
  }

  /** Splitting a table line at its bars gives back its cells, between the
      empty text before the first bar and the closing newline. */
  lemma {:induction false} SplitCellsText(cells: seq<string>)
    requires forall k :: 0 <= k < |cells| ==> BarFree(cells[k])
    ensures Split(CellsText(cells), IsBar) == cells + ["\n"]
    decreases |cells|
  {
    if cells == [] {
      SplitNoSeparator("\n", IsBar);
    } else {
      var head, tail := cells[0], cells[1..];
      var rest := CellsText(tail);
      assert CellsText(cells) == head + ['|'] + rest;
      assert BarFree(head);
      calc {
        Split(CellsText(cells), IsBar);
        Split(head + ['|'] + rest, IsBar);
        { SplitAtSeparator(head, '|', rest, IsBar); }
        Split(head, IsBar) + Split(rest, IsBar);
        { SplitNoSeparator(head, IsBar); SplitCellsText(tail); }
        [head] + (tail + ["\n"]);
        { assert cells == [head] + tail; }
        cells + ["\n"];
      }
    }
  }

  lemma SplitTableLine(cells: seq<string>)
    requires forall k :: 0 <= k < |cells| ==> BarFree(cells[k])
    ensures Split(TableLine(cells), IsBar) == [[]] + cells + ["\n"]
  {
    SplitAtSeparator([], '|', CellsText(cells), IsBar);
    assert TableLine(cells) == [] + ['|'] + CellsText(cells);
    SplitCellsText(cells);
  }

  /** The cells of the row written for `e`. */
  function RowCells(e: Entry): seq<string> {
    [" " + e.timestamp + " ", " **" + e.failure.assetId + "** ", " " + e.failure.fileName + " ", " " + e.failure.reason + " "]
  }

  /** The row's text regrouped cell by cell. */
  lemma Regroup(ts: string, id: string, name: string, reason: string)
    ensures "| " + ts + " | **" + id + "** | " + name + " | " + reason + " |\n"
         == ['|'] + ((" " + ts + " ") + ['|'] + ((" **" + id + "** ") + ['|'] +
              ((" " + name + " ") + ['|'] + ((" " + reason + " ") + ['|'] + "\n"))))
  {
  }

  lemma RowIsTableLine(e: Entry)
    ensures FormatRow(e) == TableLine(RowCells(e))
  {
    var c := RowCells(e);
    Regroup(e.timestamp, e.failure.assetId, e.failure.fileName, e.failure.reason);
    assert CellsText(c[3..]) == c[3] + ['|'] + "\n";
    assert CellsText(c[2..]) == c[2] + ['|'] + CellsText(c[3..]);
    assert CellsText(c[1..]) == c[1] + ['|'] + CellsText(c[2..]);
    assert CellsText(c) == c[0] + ['|'] + CellsText(c[1..]);
  }

  /** Splitting a row at its bars gives its four cells between the empty
      text before the first bar and the closing newline. */
  lemma RowSplit(e: Entry)
    requires BarFree(e.timestamp) && BarFree(e.failure.assetId)
    requires BarFree(e.failure.fileName) && BarFree(e.failure.reason)
    ensures var c := RowCells(e);
            Split(FormatRow(e), IsBar) == [[], c[0], c[1], c[2], c[3], "\n"]
  {
    var c := RowCells(e);
    RowIsTableLine(e);
    assert BarFree(c[0]) && BarFree(c[1]) && BarFree(c[2]) && BarFree(c[3]);
    SplitTableLine(c);
  }

  /** The asset id cell `" **" + id + "** "` reads back as the id. */
  lemma BoldCell(id: string)
    ensures var cell := CellText(" **" + id + "** ");
            && cell.Some?
            && var bold := cell.value;
               |bold| >= 4 && bold[..2] == "**" && bold[|bold| - 2..] == "**" && bold[2..|bold| - 2] == id
  {
    var piece := " **" + id + "** ";
    var bold := piece[1..|piece| - 1];
    assert bold == "**" + id + "**";
  }

  /** A row whose fields contain no `|` decodes to the entry it was written
      from: the row really has the header's four columns. */
  lemma RowRoundTrip(e: Entry)
    requires BarFree(e.timestamp) && BarFree(e.failure.assetId)
    requires BarFree(e.failure.fileName) && BarFree(e.failure.reason)
    ensures DecodeRow(FormatRow(e)) == Some(e)
  {
    RowSplit(e);
    BoldCell(e.failure.assetId);
    PlainCell(e.timestamp);
    PlainCell(e.failure.fileName);
    PlainCell(e.failure.reason);
  }

  /** A cell `" " + text + " "` reads back as the text. */
  lemma PlainCell(text: string)
    ensures CellText(" " + text + " ") == Some(text)
  {
    var piece := " " + text + " ";
    assert piece[1..|piece| - 1] == text;
  }
}

=== FILE: seqs.dfy ===
/** Sequence operations the scrapers express with list comprehensions and
    `dict.fromkeys`: order-preserving filtering, subsequences and
    first-occurrence deduplication.
 */
module Seqs {

  /** The list comprehension `[x for x in xs if keep(x)]`. */
  function Filter<T(!new)>(xs: seq<T>, keep: T -> bool): (r: seq<T>)
    ensures |r| <= |xs|
    ensures forall x :: x in r <==> x in xs && keep(x)
    decreases |xs|
  {
    if xs == [] then []
    else (if keep(xs[0]) then [xs[0]] else []) + Filter(xs[1..], keep)
  }

  /** `a` can be obtained from `b` by deleting elements (order is kept). */
  predicate IsSubseq<T(==,!new)>(a: seq<T>, b: seq<T>)
    decreases |b|
  {
    if a == [] then true
    else if b == [] then false
    else if a[0] == b[0] then IsSubseq(a[1..], b[1..])
    else IsSubseq(a, b[1..])
  }

  /** No element occurs twice. */
  predicate NoDups<T(==,!new)>(s: seq<T>) {
    forall i, j :: 0 <= i < j < |s| ==> s[i] != s[j]
  }

  /** The elements of a sequence, as a set. */
  function Elements<T(!new)>(s: seq<T>): set<T> {
    set x | x in s
  }

  /** Filtering keeps the survivors in their original order. */
  lemma {:induction false} FilterIsSubseq<T(!new)>(xs: seq<T>, keep: T -> bool)
    ensures IsSubseq(Filter(xs, keep), xs)
    decreases |xs|
  {
    if xs != [] {
      FilterIsSubseq(xs[1..], keep);
      var rest := Filter(xs[1..], keep);
      if keep(xs[0]) {
        assert Filter(xs, keep) == [xs[0]] + rest;
        assert ([xs[0]] + rest)[1..] == rest;
      } else {
        assert Filter(xs, keep) == rest;
        if rest != [] {
          assert rest[0] in rest;
        }
      }
    }
  }

  /** Filtering twice with the same predicate changes nothing more. */
  lemma {:induction false} FilterIdempotent<T(!new)>(xs: seq<T>, keep: T -> bool)
    ensures Filter(Filter(xs, keep), keep) == Filter(xs, keep)
    decreases |xs|
  {
    if xs != [] {
      FilterIdempotent(xs[1..], keep);
      var rest := Filter(xs[1..], keep);
      var f := Filter(xs, keep);
      if keep(xs[0]) {
        assert f == [xs[0]] + rest;
        assert f[1..] == rest;
        assert Filter(f, keep) == [f[0]] + Filter(f[1..], keep);
      } else {
        assert f == rest;
      }
    }
  }

  /** Filtering distributes over concatenation. */
  lemma {:induction false} FilterAppend<T(!new)>(xs: seq<T>, ys: seq<T>, keep: T -> bool)
    ensures Filter(xs + ys, keep) == Filter(xs, keep) + Filter(ys, keep)
    decreases |xs|
  {
    if xs != [] {
      assert (xs + ys)[1..] == xs[1..] + ys;
      FilterAppend(xs[1..], ys, keep);
    } else {
      assert xs + ys == ys;
    }
  }

  /** Filtering keeps every occurrence of a kept element and none of the others. */
  lemma {:induction false} FilterCount<T(!new)>(xs: seq<T>, keep: T -> bool, x: T)
    ensures multiset(Filter(xs, keep))[x] == if keep(x) then multiset(xs)[x] else 0
    decreases |xs|
  {
    if xs != [] {
      FilterCount(xs[1..], keep, x);
      assert xs == [xs[0]] + xs[1..];
    }
  }

  /** Filtering a sequence without duplicates introduces none. */
  lemma {:induction false} FilterNoDups<T(!new)>(xs: seq<T>, keep: T -> bool)
    requires NoDups(xs)
    ensures NoDups(Filter(xs, keep))
    decreases |xs|
  {
    if xs != [] {
      assert NoDups(xs[1..]) by {
        forall i, j | 0 <= i < j < |xs[1..]| ensures xs[1..][i] != xs[1..][j] {
          assert xs[1..][i] == xs[i + 1] && xs[1..][j] == xs[j + 1];
        }
      }
      FilterNoDups(xs[1..], keep);
      var rest := Filter(xs[1..], keep);
      if keep(xs[0]) {
        assert xs[0] !in xs[1..] by {
          forall j | 0 <= j < |xs[1..]| ensures xs[1..][j] != xs[0] {
            assert xs[1..][j] == xs[j + 1];
          }
        }
        var r := [xs[0]] + rest;
        forall i, j | 0 <= i < j < |r| ensures r[i] != r[j] {
          if i == 0 {
            assert r[j] == rest[j - 1] && r[j] in rest;
          } else {
            assert r[i] == rest[i - 1] && r[j] == rest[j - 1];
          }
        }
      }
    }
  }

  /** Filtering with a predicate no element satisfies keeps nothing. */
  lemma FilterOfNone<T(!new)>(xs: seq<T>, keep: T -> bool)
    requires forall x :: x in xs ==> !keep(x)
    ensures Filter(xs, keep) == []
  {
  }

  /** Filtering with a predicate every element satisfies keeps everything. */
  lemma {:induction false} FilterOfAll<T(!new)>(xs: seq<T>, keep: T -> bool)
    requires forall x :: x in xs ==> keep(x)
    ensures Filter(xs, keep) == xs
    decreases |xs|
  {
    if xs != [] {
      assert xs[0] in xs;
      assert forall x :: x in xs[1..] ==> x in xs;
      FilterOfAll(xs[1..], keep);
      assert Filter(xs, keep) == [xs[0]] + Filter(xs[1..], keep);
      HeadTail(xs);
    }
  }

  /** Subsequences compose. */
  lemma {:induction false} SubseqTrans<T(!new)>(a: seq<T>, b: seq<T>, c: seq<T>)
    requires IsSubseq(a, b) && IsSubseq(b, c)
    ensures IsSubseq(a, c)
    decreases |c|
  {
    if a != [] {
      assert b != [] && c != [];
      if b[0] == c[0] {
        if a[0] == b[0] {
          SubseqTrans(a[1..], b[1..], c[1..]);
        } else {
          SubseqTrans(a, b[1..], c[1..]);
        }
      } else {
        SubseqTrans(a, b, c[1..]);
        SubseqCons(a, c[0], c[1..]);
        assert [c[0]] + c[1..] == c;
      }
    }
  }

  /** A prefix of a subsequence is a subsequence. */
  lemma {:induction false} PrefixOfSubseq<T(!new)>(a: seq<T>, b: seq<T>, n: nat)
    requires IsSubseq(a, b)
    requires n <= |a|
    ensures IsSubseq(a[..n], b)
    decreases |b|
  {
    if n > 0 {
      assert a != [] && b != [];
      if a[0] == b[0] {
        PrefixOfSubseq(a[1..], b[1..], n - 1);
        assert a[..n][1..] == a[1..][..n - 1];
      } else {
        PrefixOfSubseq(a, b[1..], n);
      }
    }
  }

  /** An element put in front of a sequence keeps its subsequences. */
  lemma {:induction false} SubseqCons<T(!new)>(a: seq<T>, x: T, b: seq<T>)
    requires IsSubseq(a, b)
    ensures IsSubseq(a, [x] + b)
    decreases |b|
  {
    var xb := [x] + b;
    assert xb[0] == x && xb[1..] == b;
    if a != [] && a[0] == x {
      assert b != [];
      if a[0] == b[0] {
        SubseqCons(a[1..], b[0], b[1..]);
        assert [b[0]] + b[1..] == b;
      } else {
        SubseqCons(a, x, b[1..]);
        var xb1 := [x] + b[1..];
        assert xb1[0] == x && xb1[1..] == b[1..];
        SubseqCons(a[1..], b[0], b[1..]);
        assert [b[0]] + b[1..] == b;
      }
    }
  }

  /** A sequence that grew from `pre` to `full`, first by at most `x`, keeps
      the growth a subsequence of `[x] + c` when the later growth is one of `c`. */
  lemma SubseqGrowth<T(!new)>(pre: seq<T>, mid: seq<T>, full: seq<T>, x: T, c: seq<T>)
    requires pre <= mid <= full
    requires mid == pre || mid == pre + [x]
    requires IsSubseq(full[|mid|..], c)
    ensures pre <= full
    ensures IsSubseq(full[|pre|..], [x] + c)
  {
    var h := full[|mid|..];
    var all := full[|pre|..];
    if mid == pre {
      SubseqCons(h, x, c);
    } else {
      assert all == [x] + h;
      assert all[0] == x && all[1..] == h;
      assert ([x] + c)[1..] == c;
    }
  }

  /** A subsequence of a sequence without duplicates has none either, and
      only uses elements of that sequence. */
  lemma {:induction false} SubseqElements<T(!new)>(a: seq<T>, b: seq<T>)
    requires IsSubseq(a, b)
    ensures forall x :: x in a ==> x in b
    decreases |b|
  {
    if a != [] && b != [] {
      if a[0] == b[0] {
        SubseqElements(a[1..], b[1..]);
        assert a == [a[0]] + a[1..];
      } else {
        SubseqElements(a, b[1..]);
      }
    }
  }

  /** `a` is a suffix of `b`. */
  predicate IsSuffix<T(==)>(a: seq<T>, b: seq<T>) {
    |a| <= |b| && a == b[|b| - |a|..]
  }

  /** The elements of a non-empty sequence are its head and those of its tail. */
  lemma ElementsCons<T(!new)>(q: seq<T>)
    requires q != []
    ensures Elements(q) == {q[0]} + Elements(q[1..])
  {
    assert forall x :: x in q <==> x == q[0] || x in q[1..];
  }

  /** Concatenation is associative. */
  lemma AppendAssoc<T>(a: seq<T>, b: seq<T>, c: seq<T>)
    ensures a + b + c == a + (b + c)
  {
  }

  /** A non-empty sequence is its head followed by its tail. */
  lemma HeadTail<T>(q: seq<T>)
    requires q != []
    ensures [q[0]] + q[1..] == q
  {
  }

  /** A non-empty sequence whose tail splits as `d + rest` is its head,
      then `d`, then `rest`. */
  lemma HeadThen<T>(q: seq<T>, d: seq<T>, rest: seq<T>)
    requires q != [] && q[1..] == d + rest
    ensures q == [q[0]] + d + rest
  {
    assert q == [q[0]] + q[1..];
  }

  /** Dropping the head of a suffix leaves a suffix. */
  lemma SuffixTail<T>(a: seq<T>, b: seq<T>)
    requires IsSuffix(a, b) && a != []
    ensures IsSuffix(a[1..], b)
  {
    assert a[1..] == b[|b| - |a| + 1..];
  }

  /** A suffix of a sequence's tail is a suffix of the sequence. */
  lemma SuffixOfTail<T>(a: seq<T>, b: seq<T>)
    requires b != [] && IsSuffix(a, b[1..])
    ensures IsSuffix(a, b)
  {
    assert b[1..][|b| - 1 - |a|..] == b[|b| - |a|..];
  }

  /** The two parts of a sequence without duplicates have none and share
      no element. */
  lemma NoDupsSplit<T(!new)>(d: seq<T>, r: seq<T>)
    requires NoDups(d + r)
    ensures NoDups(d) && NoDups(r)
    ensures forall x :: x in d ==> x !in r
  {
    var q := d + r;
    forall i, j | 0 <= i < j < |d| ensures d[i] != d[j] {
      assert d[i] == q[i] && d[j] == q[j];
    }
    forall i, j | 0 <= i < j < |r| ensures r[i] != r[j] {
      assert r[i] == q[|d| + i] && r[j] == q[|d| + j];
    }
    forall x | x in d ensures x !in r {
      var i :| 0 <= i < |d| && d[i] == x;
      forall j | 0 <= j < |r| ensures r[j] != x {
        assert q[i] == x && q[|d| + j] == r[j];
      }
    }
  }

  /** The first index at which `x` occurs in `s`. */
  function FirstIndex<T(==,!new)>(s: seq<T>, x: T): (i: nat)
    requires x in s
    ensures i < |s| && s[i] == x
    ensures forall j :: 0 <= j < i ==> s[j] != x
  {
    if s[0] == x then 0 else 1 + FirstIndex(s[1..], x)
  }

  /** `list(dict.fromkeys(xs))`: each element once, at the position of its
      first occurrence. */
  function Dedupe<T(==,!new)>(xs: seq<T>): (r: seq<T>)
    ensures NoDups(r)
    ensures forall x :: x in r <==> x in xs
    ensures |r| <= |xs|
    decreases |xs|
  {
    if xs == [] then []
    else
      var init := Dedupe(xs[..|xs| - 1]);
      var last := xs[|xs| - 1];
      assert forall x :: x in xs <==> x in xs[..|xs| - 1] || x == last by {
        assert xs == xs[..|xs| - 1] + [last];
      }
      if last in init then init else init + [last]
  }

  /** The first occurrence in `xs` of an element of `xs[..n]` lies in `xs[..n]`. */
  lemma FirstIndexOfPrefix<T(!new)>(xs: seq<T>, n: nat, x: T)
    requires n <= |xs|
    requires x in xs[..n]
    ensures FirstIndex(xs, x) == FirstIndex(xs[..n], x)
  {
    var i := FirstIndex(xs, x);
    var k := FirstIndex(xs[..n], x);
    assert xs[k] == x;
    assert forall j :: 0 <= j < k ==> xs[j] == xs[..n][j];
  }

  /** An order by first occurrence in a prefix of `xs` is the order by
      first occurrence in `xs`. */
  lemma OrderFromPrefix<T(!new)>(xs: seq<T>, n: nat, r: seq<T>)
    requires n <= |xs|
    requires forall y :: y in r ==> y in xs[..n]
    requires forall i, j :: 0 <= i < j < |r| ==> FirstIndex(xs[..n], r[i]) < FirstIndex(xs[..n], r[j])
    ensures forall y :: y in r ==> y in xs
    ensures forall i, j :: 0 <= i < j < |r| ==> FirstIndex(xs, r[i]) < FirstIndex(xs, r[j])
  {
    forall y | y in r
      ensures y in xs && FirstIndex(xs, y) == FirstIndex(xs[..n], y)
    {
      FirstIndexOfPrefix(xs, n, y);
    }
    forall i, j | 0 <= i < j < |r|
      ensures FirstIndex(xs, r[i]) < FirstIndex(xs, r[j])
    {
      assert r[i] in r && r[j] in r;
    }
  }

  /** Appending the last element of `xs`, seen there for the first time,
      keeps an order by first occurrence. */
  lemma OrderExtend<T(!new)>(xs: seq<T>, r: seq<T>, e: seq<T>)
    requires xs != [] && xs[|xs| - 1] !in xs[..|xs| - 1]
    requires e == r + [xs[|xs| - 1]]
    requires forall y :: y in r ==> y in xs[..|xs| - 1] && y in xs
    requires forall i, j :: 0 <= i < j < |r| ==> FirstIndex(xs, r[i]) < FirstIndex(xs, r[j])
    ensures forall y :: y in e ==> y in xs
    ensures forall i, j :: 0 <= i < j < |e| ==> FirstIndex(xs, e[i]) < FirstIndex(xs, e[j])
  {
    var n := |xs| - 1;
    assert FirstIndex(xs, xs[n]) == n;
    forall y | y in r
      ensures FirstIndex(xs, y) < n
    {
      FirstIndexOfPrefix(xs, n, y);
    }
    forall i, j | 0 <= i < j < |e|
      ensures FirstIndex(xs, e[i]) < FirstIndex(xs, e[j])
    {
      assert e[i] == r[i] && r[i] in r;
      if j < |r| {
        assert e[j] == r[j];
      }
    }
  }

  /** `Dedupe` lists the elements in the order of their first occurrence. */
  lemma {:induction false} DedupeFirstOccurrenceOrder<T(!new)>(xs: seq<T>)
    ensures forall i, j :: 0 <= i < j < |Dedupe(xs)| ==>
              FirstIndex(xs, Dedupe(xs)[i]) < FirstIndex(xs, Dedupe(xs)[j])
    decreases |xs|
  {
    if xs != [] {
      var n := |xs| - 1;
      var init := Dedupe(xs[..n]);
      DedupeFirstOccurrenceOrder(xs[..n]);
      OrderFromPrefix(xs, n, init);
      if xs[n] !in init {
        OrderExtend(xs, init, init + [xs[n]]);
      }
    }
  }

  /** A sequence that already has no duplicates is its own deduplication. */
  lemma {:induction false} DedupeOfDistinct<T(!new)>(xs: seq<T>)
    requires NoDups(xs)
    ensures Dedupe(xs) == xs
    decreases |xs|
  {
    if xs != [] {
      var n := |xs| - 1;
      var pre := xs[..n];
      assert NoDups(pre);
      DedupeOfDistinct(pre);
      assert xs[n] !in pre;
      assert xs == pre + [xs[n]];
    }
  }

  /** A sequence without duplicates has as many elements as its element set. */
  lemma {:induction false} DistinctCount<T(!new)>(s: seq<T>)
    requires NoDups(s)
    ensures |Elements(s)| == |s|
    decreases |s|
  {
    if s != [] {
      var rest := s[1..];
      assert NoDups(rest);
      DistinctCount(rest);
      assert Elements(s) == {s[0]} + Elements(rest);
      assert s[0] !in Elements(rest);
    }
  }

  /** `len(list(dict.fromkeys(xs)))` is the number of distinct elements of `xs`. */
  lemma DedupeCountsDistinct<T(!new)>(xs: seq<T>)
    ensures |Dedupe(xs)| == |Elements(xs)|
  {
    DistinctCount(Dedupe(xs));
    assert Elements(Dedupe(xs)) == Elements(xs);
  }
}

=== FILE: text.dfy ===
/** The handful of Python `str` operations the scrapers rely on, over
    `string` (a sequence of Unicode code points): `strip`, `lower`/`upper`,
    `in`, `endswith`, `replace(pat, "")`, `split`, `str(n)` and `int(s)`.
 */
module Text {
  import opened Wrappers
  import opened Seqs

  /** Python's `str.isspace()` for one code point. */
  predicate IsSpace(c: char) {
    || ('\t' <= c <= '\r')
    || ('\U{1C}' <= c <= ' ')
    || c == '\U{85}' || c == '\U{A0}' || c == '\U{1680}'
    || ('\U{2000}' <= c <= '\U{200A}')
    || c == '\U{2028}' || c == '\U{2029}' || c == '\U{202F}' || c == '\U{205F}' || c == '\U{3000}'
  }

  /** The characters that end a line when a text file is read with
      universal newlines (`\r\n` reads as `\r` followed by an empty line). */
  predicate IsLineBreak(c: char) {
    c == '\n' || c == '\r'
  }

  // ---------------------------------------------------------------------------
  // strip
  // ---------------------------------------------------------------------------

  /** The length of the longest prefix of `s` made of characters `drop` accepts. */
  function LeadingCount(s: string, drop: char -> bool): (n: nat)
    ensures n <= |s|
    ensures forall i :: 0 <= i < n ==> drop(s[i])
    ensures n == |s| || !drop(s[n])
  {
    if s != [] && drop(s[0]) then 1 + LeadingCount(s[1..], drop) else 0
  }

  /** The length of the longest suffix of `s` made of characters `drop` accepts. */
  function TrailingCount(s: string, drop: char -> bool): (n: nat)
    ensures n <= |s|
    ensures forall i :: |s| - n <= i < |s| ==> drop(s[i])
    ensures n == |s| || !drop(s[|s| - n - 1])
  {
    if s != [] && drop(s[|s| - 1]) then 1 + TrailingCount(s[..|s| - 1], drop) else 0
  }

  /** Python's `s.strip(chars)` with the character set given as a predicate:
      the result is the slice of `s` left after removing the longest
      droppable prefix and suffix. */
  function StripWhere(s: string, drop: char -> bool): (r: string)
    ensures |r| <= |s|
    ensures r == [] || (!drop(r[0]) && !drop(r[|r| - 1]))
    ensures LeadingCount(s, drop) + |r| <= |s|
    ensures r == s[LeadingCount(s, drop)..LeadingCount(s, drop) + |r|]
    ensures forall i :: 0 <= i < |s| && !(LeadingCount(s, drop) <= i < LeadingCount(s, drop) + |r|) ==> drop(s[i])
    ensures r == [] <==> forall i :: 0 <= i < |s| ==> drop(s[i])
  {
    var a := LeadingCount(s, drop);
    var t := s[a..];
    t[..|t| - TrailingCount(t, drop)]
  }

  /** Python's argument-less `s.strip()`. */
  function Strip(s: string): (r: string)
    ensures |r| <= |s|
    ensures r == [] || (!IsSpace(r[0]) && !IsSpace(r[|r| - 1]))
    ensures r == [] <==> forall i :: 0 <= i < |s| ==> IsSpace(s[i])
  {
    StripWhere(s, IsSpace)
  }

  /** A string with nothing to strip is its own strip. */
  lemma StripWhereClean(s: string, drop: char -> bool)
    requires s == [] || (!drop(s[0]) && !drop(s[|s| - 1]))
    ensures StripWhere(s, drop) == s
  {
  }

  /** Stripping twice is stripping once. */
  lemma StripIdempotent(s: string)
    ensures Strip(Strip(s)) == Strip(s)
  {
    StripWhereClean(Strip(s), IsSpace);
  }

  /** Every character of a stripped string occurs in the original. */
  lemma StripWhereChars(s: string, drop: char -> bool, c: char)
    requires c in StripWhere(s, drop)
    ensures c in s
  {
    var a := LeadingCount(s, drop);
    var r := StripWhere(s, drop);
    var k :| 0 <= k < |r| && r[k] == c;
    assert s[a + k] == c;
  }

  // ---------------------------------------------------------------------------
  // lower / upper (ASCII letters only)
  // ---------------------------------------------------------------------------

  function LowerChar(c: char): char {
    if 'A' <= c <= 'Z' then (c as int + 32) as char else c
  }

  function UpperChar(c: char): char {
    if 'a' <= c <= 'z' then (c as int - 32) as char else c
  }

  /** Python's `s.lower()` restricted to the ASCII letters. */
  function Lower(s: string): (r: string)
    ensures |r| == |s|
    ensures forall i :: 0 <= i < |s| ==> r[i] == LowerChar(s[i])
  {
    if s == [] then [] else [LowerChar(s[0])] + Lower(s[1..])
  }

  /** Python's `s.upper()` restricted to the ASCII letters. */
  function Upper(s: string): (r: string)
    ensures |r| == |s|
    ensures forall i :: 0 <= i < |s| ==> r[i] == UpperChar(s[i])
  {
    if s == [] then [] else [UpperChar(s[0])] + Upper(s[1..])
  }

  /** Lower-casing twice is lower-casing once. */
  lemma LowerIdempotent(s: string)
    ensures Lower(Lower(s)) == Lower(s)
  {
    assert forall i :: 0 <= i < |s| ==> LowerChar(LowerChar(s[i])) == LowerChar(s[i]);
  }

  // ---------------------------------------------------------------------------
  // in / endswith / replace
  // ---------------------------------------------------------------------------

  /** Python's substring test `pat in s`. */
  predicate Contains(s: string, pat: string)
    decreases |s|
  {
    pat <= s || (s != [] && Contains(s[1..], pat))
  }

  /** `pat` occurs in `s` starting at index `i`. */
  predicate OccursAt(s: string, pat: string, i: int) {
    0 <= i <= |s| - |pat| && s[i..i + |pat|] == pat
  }

  /** An occurrence at any position is found by `Contains`. */
  lemma {:induction false} OccursContains(s: string, pat: string, i: int)
    requires OccursAt(s, pat, i)
    ensures Contains(s, pat)
    decreases i
  {
    if i == 0 {
      assert pat == s[..|pat|];
    } else {
      assert s[1..][i - 1..i - 1 + |pat|] == s[i..i + |pat|];
      OccursContains(s[1..], pat, i - 1);
    }
  }

  /** `Contains` finds an actual occurrence. */
  lemma {:induction false} ContainsOccurs(s: string, pat: string)
    requires Contains(s, pat)
    ensures exists i :: OccursAt(s, pat, i)
    decreases |s|
  {
    if pat <= s {
      assert OccursAt(s, pat, 0);
    } else {
      ContainsOccurs(s[1..], pat);
      var i :| OccursAt(s[1..], pat, i);
      assert s[i + 1..i + 1 + |pat|] == s[1..][i..i + |pat|];
      assert OccursAt(s, pat, i + 1);
    }
  }

  /** `Contains` holds exactly when `pat` occurs at some position of `s`. */
  lemma ContainsIffOccurs(s: string, pat: string)
    ensures Contains(s, pat) <==> exists i :: OccursAt(s, pat, i)
  {
    if Contains(s, pat) {
      ContainsOccurs(s, pat);
    }
    if exists i :: OccursAt(s, pat, i) {
      var i :| OccursAt(s, pat, i);
      OccursContains(s, pat, i);
    }
  }

  /** Python's `s.endswith(suffix)`. */
  predicate EndsWith(s: string, suffix: string) {
    |suffix| <= |s| && s[|s| - |suffix|..] == suffix
  }

  /** `n` is `k * p` for some natural `k`. */
  predicate MultipleOf(n: int, p: int)
    decreases n
  {
    n == 0 || (p > 0 && n >= p && MultipleOf(n - p, p))
  }

  /** Python's `s.replace(pat, "")` for a non-empty `pat`: occurrences are
      found left to right, each removed, and the scan resumes after it. The
      result keeps the other characters in order, loses a whole number of
      copies of `pat`, and loses at least one when `pat` occurs. It may
      still contain `pat`: removing an occurrence can join two pieces into
      a new one. */
  function RemoveAll(s: string, pat: string): (r: string)
    requires pat != []
    ensures |r| <= |s|
    ensures multiset(r) <= multiset(s)
    ensures IsSubseq(r, s)
    ensures Contains(s, pat) ==> |r| <= |s| - |pat|
    decreases |s|
  {
    if s == [] then []
    else if pat <= s then
      var r := RemoveAll(s[|pat|..], pat);
      RemoveAllDropStep(s, pat, r);
      r
    else
      var r := RemoveAll(s[1..], pat);
      RemoveAllKeepStep(s, pat, r);
      [s[0]] + r
  }

  /** The contract of `RemoveAll` carries over a removed leading copy of `pat`. */
  lemma RemoveAllDropStep(s: string, pat: string, r: string)
    requires pat != [] && pat <= s
    requires var rest := s[|pat|..];
             |r| <= |rest| && multiset(r) <= multiset(rest) && IsSubseq(r, rest)
    ensures |r| <= |s| - |pat| && multiset(r) <= multiset(s) && IsSubseq(r, s)
  {
    assert s == s[..|pat|] + s[|pat|..];
    SubseqOfSuffix(r, s, |pat|);
  }

  /** The contract of `RemoveAll` carries over a kept leading character. */
  lemma RemoveAllKeepStep(s: string, pat: string, r: string)
    requires pat != [] && s != [] && !(pat <= s)
    requires var rest := s[1..];
             |r| <= |rest| && multiset(r) <= multiset(rest) && IsSubseq(r, rest)
             && (Contains(rest, pat) ==> |r| <= |rest| - |pat|)
    ensures var e := [s[0]] + r;
            |e| <= |s| && multiset(e) <= multiset(s) && IsSubseq(e, s)
            && (Contains(s, pat) ==> |e| <= |s| - |pat|)
  {
    KeptHead(s, r);
    HeadTail(s);
  }

  /** `replace` removes whole copies of `pat`: the length lost is a
      multiple of the pattern's length. */
  lemma {:induction false} RemoveAllWholeCopies(s: string, pat: string)
    requires pat != []
    ensures MultipleOf(|s| - |RemoveAll(s, pat)|, |pat|)
  {
    RemovedLengthIsLoss(s, pat);
    RemovedLengthWhole(s, pat);
  }

  /** The number of characters `RemoveAll` drops, counted copy by copy. */
  function RemovedLength(s: string, pat: string): int
    requires pat != []
    decreases |s|
  {
    if s == [] then 0
    else if pat <= s then |pat| + RemovedLength(s[|pat|..], pat)
    else RemovedLength(s[1..], pat)
  }

  /** `RemovedLength` is the length `RemoveAll` loses. */
  lemma {:induction false} RemovedLengthIsLoss(s: string, pat: string)
    requires pat != []
    ensures |s| - |RemoveAll(s, pat)| == RemovedLength(s, pat)
    decreases |s|
  {
    if s != [] {
      if pat <= s {
        RemovedLengthIsLoss(s[|pat|..], pat);
      } else {
        RemovedLengthIsLoss(s[1..], pat);
      }
    }
  }

  /** `RemovedLength` counts whole copies of `pat`. */
  lemma {:induction false} RemovedLengthWhole(s: string, pat: string)
    requires pat != []
    ensures MultipleOf(RemovedLength(s, pat), |pat|)
    decreases |s|
  {
    if s != [] {
      if pat <= s {
        RemovedLengthWhole(s[|pat|..], pat);
        MultipleOfAdd(RemovedLength(s[|pat|..], pat), |pat|);
      } else {
        RemovedLengthWhole(s[1..], pat);
      }
    }
  }

  /** Adding one more copy keeps a multiple a multiple. */
  lemma MultipleOfAdd(n: int, p: int)
    requires p > 0 && MultipleOf(n, p)
    ensures MultipleOf(p + n, p)
  {
  }

  /** A subsequence of a suffix is a subsequence of the whole. */
  lemma {:induction false} SubseqOfSuffix(a: string, b: string, k: nat)
    requires k <= |b| && IsSubseq(a, b[k..])
    ensures IsSubseq(a, b)
    decreases k
  {
    if k > 0 {
      assert b[1..][k - 1..] == b[k..];
      SubseqOfSuffix(a, b[1..], k - 1);
      SubseqCons(a, b[0], b[1..]);
      HeadTail(b);
    }
  }

  /** Keeping the head of `s` in front of a subsequence of its tail. */
  lemma KeptHead(s: string, r: string)
    requires s != [] && IsSubseq(r, s[1..])
    ensures IsSubseq([s[0]] + r, s)
  {
    var a := [s[0]] + r;
    assert a[0] == s[0] && a[1..] == r;
  }

  /** A string in which `pat` does not occur is left unchanged. */
  lemma {:induction false} RemoveAllAbsent(s: string, pat: string)
    requires pat != []
    requires !Contains(s, pat)
    ensures RemoveAll(s, pat) == s
    decreases |s|
  {
    if s != [] {
      RemoveAllAbsent(s[1..], pat);
      assert s == [s[0]] + s[1..];
    }
  }

  /** Python's `s.replace(a, b)` for single characters. */
  function ReplaceChar(s: string, a: char, b: char): (r: string)
    ensures |r| == |s|
    ensures forall i :: 0 <= i < |s| ==> r[i] == (if s[i] == a then b else s[i])
    decreases |s|
  {
    if s == [] then [] else [if s[0] == a then b else s[0]] + ReplaceChar(s[1..], a, b)
  }

  // ---------------------------------------------------------------------------
  // split
  // ---------------------------------------------------------------------------

  /** No character of `s` is a separator. */
  predicate NoneWhere(s: string, sep: char -> bool) {
    forall j :: 0 <= j < |s| ==> !sep(s[j])
  }

  /** Python's `s.split(sep)` with the separator characters given as a
      predicate: the maximal separator-free pieces, empty ones included. */
  function Split(s: string, sep: char -> bool): (parts: seq<string>)
    ensures |parts| >= 1
    decreases |s|
  {
    if s == [] then [[]]
    else
      var rest := Split(s[1..], sep);
      if sep(s[0]) then [[]] + rest else [[s[0]] + rest[0]] + rest[1..]
  }

  /** No piece of a split contains a separator. */
  lemma {:induction false} SplitPiecesSeparatorFree(s: string, sep: char -> bool)
    ensures forall k :: 0 <= k < |Split(s, sep)| ==> NoneWhere(Split(s, sep)[k], sep)
    decreases |s|
  {
    if s != [] {
      SplitPiecesSeparatorFree(s[1..], sep);
      var rest := Split(s[1..], sep);
      if !sep(s[0]) {
        var parts := Split(s, sep);
        forall k | 0 <= k < |parts|
          ensures NoneWhere(parts[k], sep)
        {
          if k > 0 {
            assert parts[k] == rest[k];
          } else {
            assert NoneWhere(rest[0], sep);
          }
        }
      }
    }
  }

  /** A string without separators is a single piece. */
  lemma {:induction false} SplitNoSeparator(s: string, sep: char -> bool)
    requires NoneWhere(s, sep)
    ensures Split(s, sep) == [s]
    decreases |s|
  {
    if s != [] {
      SplitNoSeparator(s[1..], sep);
      assert [s[0]] + s[1..] == s;
    }
  }

  /** Splitting distributes over a separator: the pieces of `x + [c] + y`
      are the pieces of `x` followed by the pieces of `y`. */
  lemma {:induction false} SplitAtSeparator(x: string, c: char, y: string, sep: char -> bool)
    requires sep(c)
    ensures Split(x + [c] + y, sep) == Split(x, sep) + Split(y, sep)
    decreases |x|
  {
    if x == [] {
      assert x + [c] + y == [c] + y;
      assert ([c] + y)[1..] == y;
    } else {
      var s := x + [c] + y;
      assert s[0] == x[0];
      assert s[1..] == x[1..] + [c] + y;
      SplitAtSeparator(x[1..], c, y, sep);
    }
  }

  /** A split with a single piece had nothing to split. */
  lemma {:induction false} SplitSingle(s: string, sep: char -> bool)
    requires |Split(s, sep)| == 1
    ensures Split(s, sep) == [s]
    decreases |s|
  {
    if s != [] {
      SplitSingle(s[1..], sep);
      assert [s[0]] + s[1..] == s;
    }
  }

  /** The last piece of a split: Python's `s.split(sep)[-1]`. */
  function LastPiece(s: string, sep: char -> bool): (r: string)
    ensures NoneWhere(r, sep)
  {
    var parts := Split(s, sep);
    SplitPiecesSeparatorFree(s, sep);
    parts[|parts| - 1]
  }

  /** The last piece is a suffix of the string, preceded by a separator
      unless it is the whole string. */
  lemma {:induction false} LastPieceIsSuffix(s: string, sep: char -> bool)
    ensures |LastPiece(s, sep)| <= |s|
    ensures LastPiece(s, sep) == s[|s| - |LastPiece(s, sep)|..]
    ensures |LastPiece(s, sep)| < |s| ==> sep(s[|s| - |LastPiece(s, sep)| - 1])
    ensures |Split(s, sep)| > 1 ==> |LastPiece(s, sep)| < |s|
    decreases |s|
  {
    if s != [] {
      LastPieceIsSuffix(s[1..], sep);
      var rest := Split(s[1..], sep);
      var parts := Split(s, sep);
      var r := LastPiece(s[1..], sep);
      if sep(s[0]) {
        assert parts == [[]] + rest;
        assert LastPiece(s, sep) == r;
      } else if |rest| == 1 {
        SplitSingle(s[1..], sep);
        assert parts == [[s[0]] + s[1..]];
        assert [s[0]] + s[1..] == s;
        assert LastPiece(s, sep) == s;
      } else {
        assert parts == [[s[0]] + rest[0]] + rest[1..];
        assert LastPiece(s, sep) == r;
      }
    }
  }

  /** The last piece of a string ending in a separator-free run after a
      separator is that run. */
  lemma LastPieceAfterSeparator(y: string, c: char, z: string, sep: char -> bool)
    requires sep(c) && NoneWhere(z, sep)
    ensures LastPiece(y + [c] + z, sep) == z
  {
    SplitAtSeparator(y, c, z, sep);
    SplitNoSeparator(z, sep);
  }

  // ---------------------------------------------------------------------------
  // str(n) and int(s)
  // ---------------------------------------------------------------------------

  predicate IsDigit(c: char) {
    '0' <= c <= '9'
  }

  predicate AllDigits(s: string) {
    forall i :: 0 <= i < |s| ==> IsDigit(s[i])
  }

  function DigitChar(d: nat): (c: char)
    requires d < 10
    ensures IsDigit(c)
  {
    ('0' as int + d) as char
  }

  function DigitValue(c: char): (d: nat)
    requires IsDigit(c)
    ensures d < 10
  {
    c as int - '0' as int
  }

  /** The number a string of decimal digits denotes (most significant first). */
  function DigitsValue(s: string): nat
    requires AllDigits(s)
    decreases |s|
  {
    if s == [] then 0 else 10 * DigitsValue(s[..|s| - 1]) + DigitValue(s[|s| - 1])
  }

  /** Python's `str(n)` for a natural number. */
  function NatToString(n: nat): (r: string)
    ensures r != [] && AllDigits(r)
    decreases n
  {
    if n < 10 then [DigitChar(n)] else NatToString(n / 10) + [DigitChar(n % 10)]
  }

  /** Python's `str(n)` (and `f"{n}"`) for any integer. */
  function IntToString(n: int): (r: string)
    ensures r != []
    ensures n >= 0 ==> AllDigits(r)
  {
    if n < 0 then "-" + NatToString(-n) else NatToString(n)
  }

  /** Reading back the digits of `str(n)` gives `n`. */
  lemma {:induction false} NatToStringRoundTrip(n: nat)
    ensures DigitsValue(NatToString(n)) == n
    decreases n
  {
    if n >= 10 {
      var s := NatToString(n);
      NatToStringRoundTrip(n / 10);
      assert s[..|s| - 1] == NatToString(n / 10);
      assert DigitValue(s[|s| - 1]) == n % 10;
    }
  }

  /** Python's `int(s)` over a simplified decimal grammar: optional
      surrounding whitespace, an optional `+` or `-`, then one or more
      ASCII digits. `None` stands for the `ValueError` Python raises. */
  function ParseInt(s: string): (r: Option<int>)
    ensures r.Some? ==> Strip(s) != []
    ensures r.Some? && r.value < 0 ==> Strip(s)[0] == '-'
  {
    ParseDecimal(Strip(s))
  }

  /** `int()` on text whose surrounding whitespace is already stripped. */
  function ParseDecimal(t: string): Option<int> {
    if t != [] && (t[0] == '+' || t[0] == '-') then
      var body := t[1..];
      if body != [] && AllDigits(body) then
        var magnitude: int := DigitsValue(body);
        Some(if t[0] == '-' then -magnitude else magnitude)
      else None
    else if t != [] && AllDigits(t) then Some(DigitsValue(t))
    else None
  }

  /** A digit string has nothing to strip. */
  lemma StripDigits(d: string)
    requires d != [] && AllDigits(d)
    ensures Strip(d) == d
  {
    assert IsDigit(d[0]) && IsDigit(d[|d| - 1]);
    StripWhereClean(d, IsSpace);
  }

  /** `int(str(n)) == n` for a natural number. */
  lemma ParseIntOfNat(n: int)
    requires n >= 0
    ensures ParseInt(IntToString(n)) == Some(n)
  {
    var d := NatToString(n);
    assert IntToString(n) == d;
    StripDigits(d);
    assert IsDigit(d[0]);
    NatToStringRoundTrip(n);
  }

  /** `int(str(n)) == n` for a negative number. */
  lemma ParseIntOfNegative(n: int)
    requires n < 0
    ensures ParseInt(IntToString(n)) == Some(n)
  {
    var d := NatToString(-n);
    var s := "-" + d;
    assert IntToString(n) == s;
    assert s[0] == '-' && s[|s| - 1] == d[|d| - 1] && IsDigit(d[|d| - 1]);
    StripWhereClean(s, IsSpace);
    assert Strip(s) == s;
    assert s[1..] == d;
    NatToStringRoundTrip(-n);
    var magnitude: int := DigitsValue(d);
    assert magnitude == -n;
    assert ParseInt(s) == Some(-magnitude);
  }

  /** `int(str(n)) == n`. */
  lemma ParseIntRoundTrip(n: int)
    ensures ParseInt(IntToString(n)) == Some(n)
  {
    if n < 0 {
      ParseIntOfNegative(n);
    } else {
      ParseIntOfNat(n);
    }
  }

  /** Text with no digit at all is never a number. */
  lemma ParseIntNeedsDigit(s: string)
    requires forall i :: 0 <= i < |s| ==> !IsDigit(s[i])
    ensures ParseInt(s) == None
  {
    var t := Strip(s);
    var a := LeadingCount(s, IsSpace);
    if t != [] {
      assert t[0] == s[a];
      assert t[|t| - 1] == s[a + |t| - 1];
    }
  }

  // ---------------------------------------------------------------------------
  // The texts int() accepts
  // ---------------------------------------------------------------------------

  predicate AllWhere(w: string, drop: char -> bool) {
    forall i :: 0 <= i < |w| ==> drop(w[i])
  }

  predicate AllSpace(w: string) {
    AllWhere(w, IsSpace)
  }

  /** `s` reads as an integer literal split as `lead + sign + digits + trail`:
      whitespace, at most one `+` or `-`, a non-empty run of ASCII digits
      (leading zeros allowed), whitespace. */
  predicate IsIntLiteral(s: string, lead: string, sign: string, digits: string, trail: string) {
    && s == lead + sign + digits + trail
    && AllSpace(lead) && AllSpace(trail)
    && IsSign(sign) && digits != [] && AllDigits(digits)
  }

  /** What may precede the digits: nothing, `+` or `-`. */
  predicate IsSign(sign: string) {
    sign == "" || sign == "+" || sign == "-"
  }

  /** The length of the sign `t` starts with. */
  function SignLength(t: string): (k: nat)
    ensures k <= |t| && IsSign(t[..k])
  {
    if t != [] && (t[0] == '+' || t[0] == '-') then 1 else 0
  }

  /** The value of a literal: its digits, negated after a `-`. */
  function SignedValue(sign: string, digits: string): int
    requires AllDigits(digits)
  {
    if sign == "-" then -(DigitsValue(digits) as int) else DigitsValue(digits)
  }

  /** Stripping droppable characters from around a text that neither
      starts nor ends with one gives that text back. */
  lemma StripWhereAround(lead: string, core: string, trail: string, drop: char -> bool)
    requires AllWhere(lead, drop) && AllWhere(trail, drop)
    requires core != [] && !drop(core[0]) && !drop(core[|core| - 1])
    ensures StripWhere(lead + core + trail, drop) == core
  {
    var s := lead + core + trail;
    var r := StripWhere(s, drop);
    LeadingCountAround(lead, core, trail, drop);
    assert s[|lead|..|lead| + |core|] == core;
    assert s[|lead| + |core| - 1] == core[|core| - 1];
    assert |r| >= |core|;
    forall i | |lead| + |core| <= i < |s| ensures drop(s[i]) {
      assert s[i] == trail[i - |lead| - |core|];
    }
    assert r[|r| - 1] == s[|lead| + |r| - 1];
  }

  /** The droppable prefix of `lead + core + trail` is `lead`, when `core`
      starts with a character that is kept. */
  lemma LeadingCountAround(lead: string, core: string, trail: string, drop: char -> bool)
    requires AllWhere(lead, drop)
    requires core != [] && !drop(core[0])
    ensures LeadingCount(lead + core + trail, drop) == |lead|
  {
    var s := lead + core + trail;
    assert forall i :: 0 <= i < |lead| ==> s[i] == lead[i];
    assert s[|lead|] == core[0];
  }

  /** A text is its droppable prefix, its strip and its droppable suffix. */
  lemma StripWhereSplit(s: string, drop: char -> bool)
    ensures var a := LeadingCount(s, drop);
            var r := StripWhere(s, drop);
            s == s[..a] + r + s[a + |r|..] && AllWhere(s[..a], drop) && AllWhere(s[a + |r|..], drop)
  {
    var a := LeadingCount(s, drop);
    var r := StripWhere(s, drop);
    var lead, trail := s[..a], s[a + |r|..];
    forall i | 0 <= i < |lead| ensures drop(lead[i]) {
      assert lead[i] == s[i];
    }
    forall i | 0 <= i < |trail| ensures drop(trail[i]) {
      assert trail[i] == s[a + |r| + i];
    }
    assert s == lead + s[a..a + |r|] + trail;
  }

  /** A sign followed by digits parses to their signed value. */
  lemma DecimalOfLiteral(sign: string, digits: string)
    requires IsSign(sign) && digits != [] && AllDigits(digits)
    ensures ParseDecimal(sign + digits) == Some(SignedValue(sign, digits))
  {
    var t := sign + digits;
    if sign == "" {
      assert t == digits && IsDigit(t[0]);
    } else {
      assert |sign| == 1 && t[0] == sign[0] && t[1..] == digits;
      assert (t[0] == '-') == (sign == "-");
    }
  }

  /** Whatever parses after stripping is a sign followed by digits, and
      parses to their signed value. */
  lemma DecimalIsLiteral(t: string)
    requires ParseDecimal(t).Some?
    ensures var k := SignLength(t);
            && t[k..] != [] && AllDigits(t[k..])
            && ParseDecimal(t).value == SignedValue(t[..k], t[k..])
  {
    if SignLength(t) == 0 {
      assert t[..0] == "" && t[0..] == t;
    } else {
      assert t[..1] == [t[0]];
    }
  }

  /** Every integer literal parses, to its signed digit value. */
  lemma ParseIntOfLiteral(s: string, lead: string, sign: string, digits: string, trail: string)
    requires IsIntLiteral(s, lead, sign, digits, trail)
    ensures ParseInt(s) == Some(SignedValue(sign, digits))
  {
    var core := sign + digits;
    assert s == lead + core + trail;
    assert IsDigit(digits[0]) && core[|core| - 1] == digits[|digits| - 1];
    assert core[0] == if sign == "" then digits[0] else sign[0];
    StripWhereAround(lead, core, trail, IsSpace);
    DecimalOfLiteral(sign, digits);
  }

  /** Whitespace, a sign followed by digits, whitespace: an integer literal. */
  lemma LiteralOfParts(lead: string, core: string, trail: string, k: nat)
    requires AllSpace(lead) && AllSpace(trail)
    requires k <= |core| && IsSign(core[..k]) && core[k..] != [] && AllDigits(core[k..])
    ensures IsIntLiteral(lead + core + trail, lead, core[..k], core[k..], trail)
  {
    assert core == core[..k] + core[k..];
  }

  /** Whatever parses is an integer literal, and its value is the literal's. */
  lemma ParseIntIsLiteral(s: string)
    requires ParseInt(s).Some?
    ensures exists lead, sign, digits, trail ::
              IsIntLiteral(s, lead, sign, digits, trail) && SignedValue(sign, digits) == ParseInt(s).value
  {
    var t := Strip(s);
    var a := LeadingCount(s, IsSpace);
    StripWhereSplit(s, IsSpace);
    DecimalIsLiteral(t);
    var k := SignLength(t);
    LiteralOfParts(s[..a], t, s[a + |t|..], k);
    assert IsIntLiteral(s, s[..a], t[..k], t[k..], s[a + |t|..]);
  }

  /** `int(s)` succeeds with `n` exactly when `s` is an integer literal
      whose value is `n`: so "12abc", "1 2", "--1", "+" and "" are rejected,
      and " +007 " reads as 7. */
  lemma ParseIntLiterals(s: string, n: int)
    ensures ParseInt(s) == Some(n) <==>
              exists lead, sign, digits, trail ::
                IsIntLiteral(s, lead, sign, digits, trail) && SignedValue(sign, digits) == n
    ensures ParseInt(s).Some? <==> exists lead, sign, digits, trail :: IsIntLiteral(s, lead, sign, digits, trail)
  {
    if ParseInt(s).Some? {
      ParseIntIsLiteral(s);
    }
    if exists lead, sign, digits, trail ::
         IsIntLiteral(s, lead, sign, digits, trail) && SignedValue(sign, digits) == n {
      var lead, sign, digits, trail :|
        IsIntLiteral(s, lead, sign, digits, trail) && SignedValue(sign, digits) == n;
      ParseIntOfLiteral(s, lead, sign, digits, trail);
    }
    if exists lead, sign, digits, trail :: IsIntLiteral(s, lead, sign, digits, trail) {
      var lead, sign, digits, trail :| IsIntLiteral(s, lead, sign, digits, trail);
      ParseIntOfLiteral(s, lead, sign, digits, trail);
    }
  }
}

=== FILE: wrappers.dfy ===
/** Failure-carrying values shared by every module of the model.

    Python signals absence with `None` and the validators of the C4D Center
    scripts report `(success, result, error_msg)` triples; both are modelled
    here as ordinary datatypes.
 */
module Wrappers {

  /** A value that may be absent (Python's `None`). */
  datatype Option<+T> = None | Some(value: T)

  /** The outcome of a validator: the accepted value or the message that is
      printed before the prompt is repeated. */
  datatype Result<+T, +E> = Success(value: T) | Failure(error: E)
}
